=== FILE: README.md ===
# JonasCodingTest data-access core in Dafny

This project models the data-access stack of the JonasCodingTest Web API and the
one service built on it:

- `InMemoryDatabase<T>`, a dictionary keyed by `(SiteId, CompanyCode)` with
  insert-if-absent, replace-if-present, predicate scan, predicate delete, clear
  and a by-name single-field patch (`UpdateAll`);
- `CompanyRepository` and `EmployeeRepository`, which check uniqueness or
  existence with a retried scan, copy a fixed set of fields onto the stored
  record, and write through a retry-on-false helper;
- `EmployeeService`, which resolves an employee's company by name, stamps that
  company's code and site onto the employee, and adds the company's name to
  every read.

The store is an immutable `map<(string, string), T>`. Every write returns the
new map together with its result (`Store.Stored`). The dictionary's enumeration
order is unspecified, so `Store.Order` picks some enumeration of the keys and
nothing else is known about it. For that reason `Find`, `FindAll`,
`FirstOrDefault` and every repository and service operation built on them are
ghost functions. `FirstOrDefault` over a scan means "some match".

Retries are modelled over an attempt oracle (`nat -> Option<R>` or
`nat -> bool`), so both the result and the number of calls are exact. A lookup
that may come back null takes a `Lookup.Nulls` oracle saying which attempts do.
The in-memory store itself never answers null (`Lookup.Reliable`), and the
service runs over it.

Modules and files:

| file | modules | source |
|---|---|---|
| common.dfy | `Wrappers`, `Results`, `Fields` | option type for null, the success-plus-message results, case-insensitive property names |
| store.dfy | `Store` | DataAccessLayer/Database/InMemoryDatabase.cs |
| retry.dfy | `Retry`, `Lookup` | both `RetryAsync` helpers; the retried scan followed by `FirstOrDefault` |
| entities.dfy | `Companies`, `Employees` | the two entity types, their properties for `UpdateAll`, and the field copies of the repositories |
| company_repository.dfy | `CompanyRepository` | DataAccessLayer/Repositories/CompanyRepository.cs |
| employee_repository.dfy | `EmployeeRepository` | DataAccessLayer/Repositories/EmployeeRepository.cs |
| employee_service.dfy | `EmployeeService` | BusinessLayer/Services/EmployeeService.cs |

Three behaviours of the code that the model keeps as they are:

- The store keys every entity type by `(SiteId, CompanyCode)`, employees included, while `EmployeeRepository.SaveEmployeeAsync` checks uniqueness on `(SiteId, EmployeeCode)`. So a second employee of the same company at the same site passes that check. The insert then refuses it with "Failed to save employee." (`EmployeeRepository.SecondEmployeeOfCompanyFails`).
- `UpdateAll` with an unknown property name does not fail fatally. `UpdateProperty` throws, `UpdateAll` catches the exception and returns `false`, and no entity changes. With no matching entity the loop never runs, so the result is `true`.
- The query retry returns `null` once every attempt came back `null`; the boolean retry returns `false` once every attempt answered `false`.

## Model

| member | source | states |
|---|---|---|
| Store.Insert | DataAccessLayer/Database/InMemoryDatabase.cs:21-40 | succeeds exactly when the item's key is absent; on success adds only that entry and keeps every other entry; on failure leaves the store unchanged; preserves the key invariant |
| Store.Update | DataAccessLayer/Database/InMemoryDatabase.cs:42-61 | succeeds exactly when the item's key is present; replaces only that entry with the whole item; no key is added or lost; on failure the store is unchanged; preserves the key invariant |
| Store.InsertOrUpdate | DataAccessLayer/Database/InMemoryDatabase.cs:25-31 | for any item exactly one of insert and update succeeds, and the one that does leaves the store with the item under its key |
| Store.FindKeys | DataAccessLayer/Database/InMemoryDatabase.cs:63-70 | the scan visits each matching key exactly once and no other key |
| Store.Find | DataAccessLayer/Database/InMemoryDatabase.cs:63-77 | returns only stored entities satisfying the predicate, every such entity, and one entity per matching key, in scan order |
| Store.FindAll | DataAccessLayer/Database/InMemoryDatabase.cs:79-92 | returns one stored entity per key, in enumeration order, and every stored entity |
| Store.FindCounts | DataAccessLayer/Database/InMemoryDatabase.cs:63-77 | each value comes back exactly as many times as it is stored under a key whose entity satisfies the predicate |
| Store.FindAllCounts | DataAccessLayer/Database/InMemoryDatabase.cs:79-92 | each value comes back exactly as many times as it is stored |
| Store.FindTrueIsFindAll | DataAccessLayer/Database/InMemoryDatabase.cs:67-68 | a scan with a predicate that accepts everything is `FindAll`, in the same order |
| Store.FindAllOnceEach | DataAccessLayer/Database/InMemoryDatabase.cs:83 | an attribute no two stored entries share differs at every two positions of `FindAll` |
| Store.Delete | DataAccessLayer/Database/InMemoryDatabase.cs:94-111 | always returns true; removes entries and changes none; in a consistent store exactly the entries not satisfying the predicate remain |
| Store.DeleteThenFind | DataAccessLayer/Database/InMemoryDatabase.cs:98-104 | after a delete by predicate in a consistent store, a scan with that predicate finds nothing |
| Store.DeleteIdempotent | DataAccessLayer/Database/InMemoryDatabase.cs:94-105 | deleting twice with the same predicate leaves the same store as deleting once |
| Store.DeleteAll | DataAccessLayer/Database/InMemoryDatabase.cs:113-126 | returns true and leaves the store empty |
| Store.DeleteAllThenFindAll | DataAccessLayer/Database/InMemoryDatabase.cs:113-119 | after clearing, `FindAll` returns nothing |
| Store.UpdateAll | DataAccessLayer/Database/InMemoryDatabase.cs:128-146 | never loses a key; with an unknown property name the store is unchanged and the result is true exactly when nothing matched |
| Store.PatchEach | DataAccessLayer/Database/InMemoryDatabase.cs:133-138 | the loop never loses a key, and returns true exactly when the setter succeeds on every visited entity; otherwise some visited entity made it fault |
| Store.PatchEachInPlace | DataAccessLayer/Database/InMemoryDatabase.cs:133-138 | when no patched entity changes key, the loop writes the patched entity into exactly the visited slots and returns true |
| Store.UpdateAllNonKeyField | DataAccessLayer/Database/InMemoryDatabase.cs:128-139 | patching a field outside the key with a value of the right kind: every matching entity gets the value, every other entry is untouched, the result is true, and the key invariant holds afterwards |
| Store.UpdateAllNonKeyFieldAt | DataAccessLayer/Database/InMemoryDatabase.cs:128-139 | the same property entry by entry: no key is added or lost, and each entry is patched exactly when it matches |
| Store.PatchEachAddsNewKeys | DataAccessLayer/Database/InMemoryDatabase.cs:133-136 | when no setter faults, the key each patched entity's new fields give is present in the store, and with the scan taken first the loop returns true |
| Store.UpdateAllKeyField | DataAccessLayer/Database/InMemoryDatabase.cs:128-139 | when the setter never faults (a key field included): no key is lost, the key each matching entity's patched fields give is present in the store, and with the scan taken first the result is true |
| Store.UpdateAllSingle | DataAccessLayer/Database/InMemoryDatabase.cs:133-136 | on a store with one matching entity, the patched entity is written both to its old slot and to the slot of its new key; with the scan taken first the result is true, where the C# code returns false after a write that adds a key |
| Fields.Lookup | DataAccessLayer/Database/InMemoryDatabase.cs:150-151 | finds a listed property whose name equals the given one ignoring case, or reports that none does |
| Companies.Resolve | DataAccessLayer/Database/InMemoryDatabase.cs:150-156 | a company property name resolves exactly when it matches one of the properties ignoring case |
| Companies.Set | DataAccessLayer/Database/InMemoryDatabase.cs:158-159 | setting a property succeeds exactly for a value of its kind, gives that property the value, and leaves every other property alone |
| Companies.CopyDetailsFields | DataAccessLayer/Repositories/CompanyRepository.cs:132-144 | the copy takes `SiteId` and `CompanyCode` from the stored company and every other field from the new data |
| Companies.CopyDetails | DataAccessLayer/Repositories/CompanyRepository.cs:132-144 | the copied company keeps the stored company's store key |
| Companies.PatchNonKeyField | DataAccessLayer/Database/InMemoryDatabase.cs:128-159 | on a company store, patching a non-key property by name succeeds, keeps every key, and sets the value on exactly the matching companies |
| Companies.PatchNonKeyFieldConsistent | DataAccessLayer/Database/InMemoryDatabase.cs:128-159 | that patch keeps every company under its own key |
| Companies.PatchSiteIdLeavesOldKey | DataAccessLayer/Database/InMemoryDatabase.cs:135-136 | patching `SiteId` (named in lower case) on a single stored company adds the new key while the old key remains, and breaks the key invariant; with the scan taken first the patch reports success |
| Employees.Resolve | DataAccessLayer/Database/InMemoryDatabase.cs:150-156 | an employee property name resolves exactly when it matches one of the properties ignoring case |
| Employees.Set | DataAccessLayer/Database/InMemoryDatabase.cs:158-159 | setting an employee property succeeds exactly for a value of its kind and changes only that property |
| Employees.CopyDetails | DataAccessLayer/Repositories/EmployeeRepository.cs:127-135 | the copied employee keeps the stored employee's store key and employee code |
| Employees.CopyDetailsFields | DataAccessLayer/Repositories/EmployeeRepository.cs:127-135 | the copy takes site, company code and employee code from the stored employee and the six detail fields from the new data |
| Employees.PatchNonKeyField | DataAccessLayer/Database/InMemoryDatabase.cs:128-159 | on an employee store, patching a property outside the store key by name (`EmployeeCode` included) succeeds, keeps every key, and sets the value on exactly the matching employees |
| Employees.PatchNonKeyFieldConsistent | DataAccessLayer/Database/InMemoryDatabase.cs:128-159 | that patch keeps every employee under its own key |
| Retry.RetryQuery | DataAccessLayer/Repositories/CompanyRepository.cs:105-117 | at most `maxRetries` calls; every call before the last came back null; the result is the last call's answer; null only after all `maxRetries` attempts |
| Retry.QueryFrom | DataAccessLayer/Repositories/CompanyRepository.cs:107-116 | the loop from attempt `i` on, after `i` null answers: the same bound, result and call count as the whole retry |
| Retry.RetryBool | DataAccessLayer/Repositories/CompanyRepository.cs:119-130 | at most `maxRetries` calls; true exactly when the last call answered true and every earlier one false; false only after all `maxRetries` calls |
| Retry.BoolFrom | DataAccessLayer/Repositories/CompanyRepository.cs:121-129 | the loop from attempt `i` on, after `i` false answers: the same bound, result and call count as the whole retry |
| Retry.RetryBoolSteady | DataAccessLayer/Repositories/EmployeeRepository.cs:114-125 | retrying a call whose every attempt answers the same takes one call on success and three on failure, and passes the answer through |
| Lookup.Query | DataAccessLayer/Repositories/EmployeeRepository.cs:100-112 | a retried query is null exactly when all three attempts came back null, and otherwise returns the store's answer |
| Lookup.FirstMatch | DataAccessLayer/Repositories/CompanyRepository.cs:29-31 | `FirstOrDefault` over a retried scan gives a matching stored entry, or null exactly when the query came back null or nothing matches |
| CompanyRepository.MatchingSiteAndCode | DataAccessLayer/Repositories/CompanyRepository.cs:38 | in a consistent store, some company has the new company's site and code exactly when its store key is taken |
| CompanyRepository.GetAll | DataAccessLayer/Repositories/CompanyRepository.cs:22-25 | null exactly when every attempt came back null; otherwise exactly the store's `FindAll` list: one company per stored entry, each value as often as it is stored |
| CompanyRepository.GetByCode | DataAccessLayer/Repositories/CompanyRepository.cs:27-32 | a stored company with that code, or null exactly when the query came back null or no company has the code |
| CompanyRepository.GetByName | DataAccessLayer/Repositories/CompanyRepository.cs:85-90 | a stored company with that name, or null exactly when the query came back null or no company has the name |
| CompanyRepository.Save | DataAccessLayer/Repositories/CompanyRepository.cs:34-47 | "already exists" exactly when the lookup answered and found the same site and code; past that check the save succeeds exactly when the key is free, in any store; success exactly with "saved" and then only that entry is added; on failure the store is unchanged |
| CompanyRepository.SaveInConsistentStore | DataAccessLayer/Repositories/CompanyRepository.cs:38-45 | in a consistent store the save succeeds exactly when the key is free; a taken key gives "already exists", or "failed to save" when the lookup came back null |
| CompanyRepository.SaveThenGetByCode | DataAccessLayer/Repositories/CompanyRepository.cs:34-47 | saving a company whose code no stored company has succeeds, and a lookup by that code then returns it |
| CompanyRepository.UpdateFound | DataAccessLayer/Repositories/CompanyRepository.cs:59-60 | in a consistent store the found company is replaced by the field copy in its own slot and the update reports true |
| CompanyRepository.UpdateByCode | DataAccessLayer/Repositories/CompanyRepository.cs:49-62 | false with the store unchanged when the code is absent or the lookup came back null; otherwise in a consistent store true, and exactly one company with that code gets the field copy |
| CompanyRepository.UpdateThenGetByCode | DataAccessLayer/Repositories/CompanyRepository.cs:49-62 | updating the only company with a code succeeds, and a lookup by that code then returns the copied details under the old site and code |
| CompanyRepository.DeleteByCode | DataAccessLayer/Repositories/CompanyRepository.cs:64-83 | true exactly when the lookup answered and some company has the code; on false the store is unchanged; in a consistent store exactly the companies with other codes remain, at every site |
| CompanyRepository.DeleteThenGetByCode | DataAccessLayer/Repositories/CompanyRepository.cs:64-83 | after a successful delete by code no lookup by that code finds a company |
| EmployeeRepository.GetAll | DataAccessLayer/Repositories/EmployeeRepository.cs:22-25 | null exactly when every attempt came back null; otherwise exactly the store's `FindAll` list: one employee per stored entry, each value as often as it is stored |
| EmployeeRepository.GetByCode | DataAccessLayer/Repositories/EmployeeRepository.cs:27-32 | a stored employee with that code, or null exactly when the query came back null or no employee has the code |
| EmployeeRepository.Save | DataAccessLayer/Repositories/EmployeeRepository.cs:34-47 | "already exists" exactly when the lookup answered and found the same site and employee code; past that check the save succeeds exactly when the (site, company code) key is free, so the same employee code at another site is saved; success exactly with "saved", and then the employee is added under its (site, company code) key; on failure the store is unchanged |
| EmployeeRepository.SecondEmployeeOfCompanyFails | DataAccessLayer/Repositories/EmployeeRepository.cs:38-45 | an employee with an unused site and employee code whose (site, company code) key is taken is refused with "failed to save" and the store is unchanged |
| EmployeeRepository.SaveThenGetByCode | DataAccessLayer/Repositories/EmployeeRepository.cs:34-47 | saving an employee under a free key with an unused code succeeds, and a lookup by that code then returns it |
| EmployeeRepository.UpdateFound | DataAccessLayer/Repositories/EmployeeRepository.cs:59-62 | in a consistent store the found employee is replaced by the field copy in its own slot and the update reports true |
| EmployeeRepository.UpdateByCode | DataAccessLayer/Repositories/EmployeeRepository.cs:49-64 | "not found" with the store unchanged when the code is absent or the lookup came back null; success exactly with "updated"; in a consistent store success exactly when the code is present, and exactly one employee with that code gets the field copy |
| EmployeeRepository.UpdateKeepsIdentity | DataAccessLayer/Repositories/EmployeeRepository.cs:127-135 | an update by code changes no stored employee's site, company code or employee code |
| EmployeeRepository.DeleteByCode | DataAccessLayer/Repositories/EmployeeRepository.cs:66-85 | true exactly when the lookup answered and some employee has the code; on false the store is unchanged; in a consistent store exactly the employees with other codes remain |
| EmployeeRepository.DeleteThenGetByCode | DataAccessLayer/Repositories/EmployeeRepository.cs:66-85 | after a successful delete by code no lookup by that code finds an employee |
| EmployeeService.CompanyNameOf | BusinessLayer/Services/EmployeeService.cs:63-64 | the name of some company with the employee's company code, or null exactly when no company has that code |
| EmployeeService.CompanyNamed | BusinessLayer/Services/EmployeeService.cs:84-85 | a stored company carrying the given name, or null exactly when the name is null or no company has it |
| EmployeeService.Stamp | BusinessLayer/Services/EmployeeService.cs:90-92 | the mapped employee gets the company's code and site and keeps every other field as mapped |
| EmployeeService.FirstWithCode | BusinessLayer/Services/EmployeeService.cs:38 | the first info with the code: it carries the code and no earlier info does; none only when no info carries it |
| EmployeeService.Enrich | BusinessLayer/Services/EmployeeService.cs:35-40 | naming companies changes no info other than its company name, and the loop completes whenever every employee's code occurs among the infos |
| EmployeeService.MapAll | BusinessLayer/Services/EmployeeService.cs:33 | the mapped list has one info per employee, in the same order, each the mapper's image of that employee |
| EmployeeService.GetAllEmployees | BusinessLayer/Services/EmployeeService.cs:28-49 | either empty (where `First` throws) or one info per stored employee; always the latter when the mapper keeps the employee code |
| EmployeeService.EnrichFrom | BusinessLayer/Services/EmployeeService.cs:35-40 | with distinct codes and a code-keeping mapper, the loop from any position on enriches every remaining info with its own company's name |
| EmployeeService.GetAllEmployeesEnriched | BusinessLayer/Services/EmployeeService.cs:28-43 | with unique employee codes and a code-keeping mapper, the result has one info per stored employee, in enumeration order, each the mapped employee with the name of the company its company code names |
| EmployeeService.GetEmployeeByCode | BusinessLayer/Services/EmployeeService.cs:51-73 | null exactly when no employee has the code; otherwise the mapped info of an employee with that code, carrying its company's name |
| EmployeeService.AddEmployee | BusinessLayer/Services/EmployeeService.cs:75-102 | a null info is rejected with the store untouched; an unknown company name gives "Company of that Employee is not found." without saving; otherwise the stamped employee is saved and the repository's result passed back |
| EmployeeService.AddEmployeeStoresStamped | BusinessLayer/Services/EmployeeService.cs:84-95 | a successful add stores one new employee under a free key, carrying the code and site of a company with the given name |
| EmployeeService.UpdateEmployeeByCode | BusinessLayer/Services/EmployeeService.cs:104-136 | a null info is rejected with the store untouched; an unknown company name gives "Company with name … not found." naming it; otherwise the repository's update result is passed back |
| EmployeeService.UpdateNeverMovesEmployee | BusinessLayer/Services/EmployeeService.cs:113-129 | through the service an update keeps every key and changes no stored employee's site, company code or employee code, although it stamps the company's onto the new data |
| EmployeeService.DeleteEmployeeByCode | BusinessLayer/Services/EmployeeService.cs:138-154 | true exactly when some employee has the code; on false the store is unchanged; in a consistent store exactly the employees with other codes remain |

## Left out

- Asynchrony and time: the `*Async` wrappers are identical to the synchronous operations; the one-second delay between retries is not modelled, only the number of attempts.
- Logging and console output: they change no state.
- Exceptions inside the store other than the two of `UpdateAll`: an unknown property name, and a value of the wrong type for `SetValue`. Both are modelled; either one ends the loop with `false`. Every other operation is total, so the catch-all blocks that turn any other fault into `false` or an empty result are not modelled.
- Exceptions that escape the repositories (`ExecuteDbOperationAsync` rethrows them), and the service's catch blocks that turn them into an error result.
- Modifying the .NET `Dictionary` while `Delete` and `UpdateAll` enumerate a lazy scan of it. A write that adds a key invalidates the enumerator on every .NET runtime: the next step of the scan throws, and the catch block returns `false` after that first write. The Web API runs on .NET Framework (`System.Web`, and `WebActivatorEx` in WebApi/App_Start/NinjectWebCommon.cs), where overwriting and removing an entry invalidate the enumerator too, so there `Delete` and `UpdateAll` act on the first match and then return `false`. The model treats both operations as if the scan were taken before the first write; this is a modelling choice, not what the runtime does.
- Object identity: after `UpdateAll` patches a key field, the old and new slots hold the same object in the C# code; the model stores two equal values, so a later change to one slot is not seen in the other.
- Null fields of entities and null arguments other than the service's `EmployeeInfo`: every field is a string or a timestamp. The service's `CompanyName` lookup treats a null name as matching no company.
- Case folding in the property lookup is ASCII only.
- `Company` and `Employee` carry the fields the repositories copy, plus `SiteId`, `CompanyCode` and, for employees, `EmployeeCode`; `LastModified` is an integer timestamp.
- The object mapper is a parameter (`EmployeeService.Mapper`); the AutoMapper profile is not modelled. Properties of `GetAllAsync` that need the mapper to keep the employee code say so.
- EmployeeService.GetAllEmployees: the branch where the employee repository answers null is unreachable over the in-memory store, which never answers null. What the C# code does there (`First` over an empty list, or a null reference in the loop) is not modelled.
- EmployeeService.GetAllEmployeesEnriched: states the result only for stores whose employee codes are unique. With duplicate codes, `First` enriches the first info with a code again and again, and later infos with that code keep whatever company name the mapper gave them.
- Store.Find: states which entities come back and how often each value appears (`Store.FindCounts`), not the order; the dictionary's enumeration order is unspecified.
- Store.UpdateAllKeyField: states only that each match's new key is present. When two matches get the same new key, the later write wins, and the model does not say which match that is.
- Store.PatchEachAddsNewKeys: the same as `Store.UpdateAllKeyField`, for the loop.
- Store.UpdateAllKeyField: a result of `true` holds only with the scan taken first. When a patched entity's new key is not yet stored, the C# code writes it, the scan then throws, and `UpdateAll` returns `false` with that first write kept.
- Store.PatchEachAddsNewKeys: returns `true` only with the scan taken first; the C# loop stops with `false` after the first write that adds a key.
- Store.UpdateAllSingle: the result `true` holds only with the scan taken first. When the patched entity's key differs from its old one, the C# code returns `false` after writing the new slot, leaving the store the lemma states.
- Companies.PatchSiteIdLeavesOldKey: "succeeds" holds only with the scan taken first; the C# code returns `false` after adding the new key, and both keys stay in the store as the lemma states.
- `CompanyService`, the controllers, dependency injection and the result classes are not modelled.
- Concurrency: the store is a process-wide singleton, and the check-then-act races between concurrent requests are not modelled.

=== FILE: common.dfy ===
/**
 * Shared vocabulary of the model: optional values (the stand-in for a
 * nullable reference), the structured outcome the repositories return, and
 * the case-insensitive field-name matching used by the by-name field patch.
 */
module Wrappers {

  /** `None` plays the part of C#'s `null`. */
  datatype Option<+T> = None | Some(value: T)
}

module Results {

  /** A success flag plus a fixed message: `SaveResultData`, `ResultData` and `Result` alike. */
  datatype Outcome = Outcome(success: bool, message: string)
}

module Fields {
  import opened Wrappers

  /**
   * A value handed to a by-name field patch. The C# code passes an untyped
   * `object`; reflection accepts it only when its run-time type fits the
   * property, so the model keeps the two kinds the entities use apart.
   */
  datatype Value = Text(text: string) | Stamp(ticks: int)

  /** Simple case folding, restricted to ASCII letters. */
  function FoldChar(c: char): char
  {
    if 'A' <= c <= 'Z' then (c as int + 32) as char else c
  }

  predicate SameIgnoringCase(a: string, b: string)
  {
    |a| == |b| && forall i :: 0 <= i < |a| ==> FoldChar(a[i]) == FoldChar(b[i])
  }

  /**
   * The first entry of `fields` whose name matches `name` ignoring case: the
   * `BindingFlags.IgnoreCase` property lookup, over a fixed list of properties.
   */
  function Lookup<F>(fields: seq<F>, nameOf: F -> string, name: string): (r: Option<F>)
    ensures r.Some? ==> r.value in fields && SameIgnoringCase(nameOf(r.value), name)
    ensures r.None? ==> forall f :: f in fields ==> !SameIgnoringCase(nameOf(f), name)
  {
    if fields == [] then None
    else if SameIgnoringCase(nameOf(fields[0]), name) then Some(fields[0])
    else
      var rest := Lookup(fields[1..], nameOf, name);
      assert forall f :: f in fields ==> f == fields[0] || f in fields[1..];
      rest
  }
}

=== FILE: company_repository.dfy ===
/**
 * `CompanyRepository` over the in-memory store. Every lookup is a retried
 * `Find` followed by `FirstOrDefault`; `nulls` says which attempts of that
 * lookup come back null. Every store write goes through the retry-on-false
 * helper, which over the in-memory store either succeeds at once or fails
 * identically on every attempt.
 */
module CompanyRepository {
  import opened Wrappers
  import opened Results
  import Store
  import opened Retry
  import opened Lookup
  import opened Companies

  const AlreadyExists: string := "Company already exists with the same code."
  const Saved: string := "Company saved successfully."
  const SaveFailed: string := "Failed to save company."

  function WithCode(code: string): Company -> bool
  {
    (c: Company) => c.companyCode == code
  }

  function WithName(name: string): Company -> bool
  {
    (c: Company) => c.companyName == name
  }

  /** The uniqueness filter of `SaveCompanyAsync`: same `SiteId` and same `CompanyCode`. */
  function SameSiteAndCode(c: Company): Company -> bool
  {
    (x: Company) => x.siteId == c.siteId && x.companyCode == c.companyCode
  }

  predicate HasCode(db: Store.Db<Company>, code: string)
  {
    exists k :: k in db && db[k].companyCode == code
  }

  predicate HasName(db: Store.Db<Company>, name: string)
  {
    exists k :: k in db && db[k].companyName == name
  }

  lemma MatchingCode(db: Store.Db<Company>, code: string)
    ensures Store.Matching(db, WithCode(code)) == {} <==> !HasCode(db, code)
  {
    if k :| k in db && db[k].companyCode == code {
      assert k in Store.Matching(db, WithCode(code));
    }
  }

  lemma MatchingName(db: Store.Db<Company>, name: string)
    ensures Store.Matching(db, WithName(name)) == {} <==> !HasName(db, name)
  {
    if k :| k in db && db[k].companyName == name {
      assert k in Store.Matching(db, WithName(name));
    }
  }

  lemma MatchingSameSite(db: Store.Db<Company>, c: Company)
    ensures Store.Matching(db, SameSiteAndCode(c)) == {} <==>
              !exists k :: k in db && db[k].siteId == c.siteId && db[k].companyCode == c.companyCode
  {
    if k :| k in db && db[k].siteId == c.siteId && db[k].companyCode == c.companyCode {
      assert k in Store.Matching(db, SameSiteAndCode(c));
    }
  }

  /** In a consistent store, a company with `c`'s site and code exists exactly when `c`'s key is taken. */
  lemma MatchingSiteAndCode(db: Store.Db<Company>, c: Company)
    requires Store.Consistent(db, KeyOf)
    ensures Store.Matching(db, SameSiteAndCode(c)) == {} <==> KeyOf(c) !in db
  {
    if KeyOf(c) in db {
      assert KeyOf(c) in Store.Matching(db, SameSiteAndCode(c));
    }
  }

  /** `GetAllAsync`: every stored company once, or null when every attempt came back null. */
  ghost function GetAll(db: Store.Db<Company>, nulls: Nulls): (r: Option<seq<Company>>)
    ensures r.None? <==> AllNull(nulls)
    ensures r.Some? ==> |r.value| == |db|
    ensures r.Some? ==> forall i :: 0 <= i < |r.value| ==> r.value[i] in db.Values
    ensures r.Some? ==> forall k :: k in db ==> db[k] in r.value
    ensures r.Some? ==> r.value == Store.FindAll(db)
  {
    Query(nulls, Store.FindAll(db))
  }

  /** `GetByCodeAsync`: some stored company with that code, or null. */
  ghost function GetByCode(db: Store.Db<Company>, nulls: Nulls, code: string): (r: Option<Company>)
    ensures r.Some? ==> r.value in db.Values && r.value.companyCode == code
    ensures r.None? <==> AllNull(nulls) || !HasCode(db, code)
  {
    MatchingCode(db, code);
    match FirstMatch(db, nulls, WithCode(code))
    case None => None
    case Some(k) => Some(db[k])
  }

  /** `GetByNameAsync`: some stored company with that name, or null. */
  ghost function GetByName(db: Store.Db<Company>, nulls: Nulls, name: string): (r: Option<Company>)
    ensures r.Some? ==> r.value in db.Values && r.value.companyName == name
    ensures r.None? <==> AllNull(nulls) || !HasName(db, name)
  {
    MatchingName(db, name);
    match FirstMatch(db, nulls, WithName(name))
    case None => None
    case Some(k) => Some(db[k])
  }

  /**
   * `SaveCompanyAsync`: refused when the lookup finds a company with the same
   * site and code; otherwise the result of the (retried) insert.
   */
  ghost function Save(db: Store.Db<Company>, nulls: Nulls, c: Company): (r: Store.Stored<Company, Outcome>)
    ensures r.result.message == AlreadyExists <==>
              !AllNull(nulls) && exists k :: k in db && db[k].siteId == c.siteId && db[k].companyCode == c.companyCode
    ensures r.result.success <==> r.result.message == Saved
    ensures r.result.message == AlreadyExists || r.result.message == Saved || r.result.message == SaveFailed
    ensures r.result.success ==> KeyOf(c) !in db && r.db == db[KeyOf(c) := c]
    ensures r.result.message != AlreadyExists ==> (r.result.success <==> KeyOf(c) !in db)
    ensures !r.result.success ==> r.db == db
    ensures Store.Consistent(db, KeyOf) ==> Store.Consistent(r.db, KeyOf)
  {
    MatchingSameSite(db, c);
    if FirstMatch(db, nulls, SameSiteAndCode(c)).Some? then
      Store.Stored(db, Outcome(false, AlreadyExists))
    else
      var ins := Store.Insert(db, KeyOf, c);
      var ok := RetryBool(_ => ins.result, MaxRetries).result;
      Store.Stored(ins.db, Outcome(ok, if ok then Saved else SaveFailed))
  }

  /**
   * In a consistent store the save succeeds exactly when `c`'s key is free; a
   * taken key is reported as a duplicate, or, when the lookup came back null,
   * as a failed insert.
   */
  lemma SaveInConsistentStore(db: Store.Db<Company>, nulls: Nulls, c: Company)
    requires Store.Consistent(db, KeyOf)
    ensures var r := Save(db, nulls, c);
      && (r.result.success <==> KeyOf(c) !in db)
      && (KeyOf(c) in db ==> r.result.message == if AllNull(nulls) then SaveFailed else AlreadyExists)
  {
    MatchingSiteAndCode(db, c);
    if KeyOf(c) in db {
      assert db[KeyOf(c)].siteId == c.siteId && db[KeyOf(c)].companyCode == c.companyCode;
    }
  }

  /** When exactly one stored company has a code, a reliable lookup by that code finds it. */
  lemma UniqueCodeFound(db: Store.Db<Company>, code: string, c: Company)
    requires HasCode(db, code)
    requires forall k :: k in db && db[k].companyCode == code ==> db[k] == c
    ensures GetByCode(db, Reliable(), code) == Some(c)
  {
    ReliableAnswers();
  }

  /** A company saved under a code no stored company has is what a lookup by that code finds. */
  lemma SaveThenGetByCode(db: Store.Db<Company>, nulls: Nulls, c: Company)
    requires Store.Consistent(db, KeyOf)
    requires !HasCode(db, c.companyCode)
    ensures Save(db, nulls, c).result.success
    ensures GetByCode(Save(db, nulls, c).db, Reliable(), c.companyCode) == Some(c)
  {
    assert KeyOf(c) !in db;
    SaveInConsistentStore(db, nulls, c);
    var after := db[KeyOf(c) := c];
    assert Save(db, nulls, c).db == after;
    assert after[KeyOf(c)] == c;
    UniqueCodeFound(after, c.companyCode, c);
  }

  /**
   * `UpdateByCodeAsync`: the company found by code has its ten detail fields
   * overwritten in place (the stored object itself is mutated), then the
   * store's `Update` is retried with it.
   */
  ghost function UpdateByCode(db: Store.Db<Company>, nulls: Nulls, code: string, newData: Company): (r: Store.Stored<Company, bool>)
    ensures r.db.Keys == db.Keys
    ensures AllNull(nulls) || !HasCode(db, code) ==> r == Store.Stored(db, false)
    ensures Store.Consistent(db, KeyOf) ==> Store.Consistent(r.db, KeyOf)
    ensures Store.Consistent(db, KeyOf) ==> (r.result <==> !AllNull(nulls) && HasCode(db, code))
    ensures Store.Consistent(db, KeyOf) && r.result ==>
              exists k :: k in db && db[k].companyCode == code && r.db == db[k := CopyDetails(db[k], newData)]
  {
    MatchingCode(db, code);
    match FirstMatch(db, nulls, WithCode(code))
    case None => Store.Stored(db, false)
    case Some(k) => UpdateFound(db, k, newData)
  }

  /**
   * The found branch of `UpdateByCodeAsync`: the stored company under `k` is
   * overwritten in place, then `Update` stores it under its own key. In a
   * consistent store that key is `k`, so the update succeeds at once.
   */
  function UpdateFound(db: Store.Db<Company>, k: Store.Key, newData: Company): (r: Store.Stored<Company, bool>)
    requires k in db
    ensures r.db.Keys == db.Keys
    ensures Store.Consistent(db, KeyOf) ==> r == Store.Stored(db[k := CopyDetails(db[k], newData)], true)
    ensures Store.Consistent(db, KeyOf) ==> Store.Consistent(r.db, KeyOf)
  {
    var updated := CopyDetails(db[k], newData);
    var up := Store.Update(db[k := updated], KeyOf, updated);
    Store.Stored(up.db, RetryBool(_ => up.result, MaxRetries).result)
  }

  /**
   * Updating the only company with a code: the update succeeds and a lookup by
   * that code then finds the stored company with the new details and its old
   * site and code.
   */
  lemma UpdateThenGetByCode(db: Store.Db<Company>, nulls: Nulls, k0: Store.Key, newData: Company)
    requires Store.Consistent(db, KeyOf)
    requires k0 in db && !AllNull(nulls)
    requires forall k :: k in db && db[k].companyCode == db[k0].companyCode ==> k == k0
    ensures UpdateByCode(db, nulls, db[k0].companyCode, newData).result
    ensures GetByCode(UpdateByCode(db, nulls, db[k0].companyCode, newData).db, Reliable(), db[k0].companyCode)
         == Some(CopyDetails(db[k0], newData))
  {
    var code := db[k0].companyCode;
    var r := UpdateByCode(db, nulls, code, newData);
    var k :| k in db && db[k].companyCode == code && r.db == db[k := CopyDetails(db[k], newData)];
    assert k == k0;
    assert r.db[k0] == CopyDetails(db[k0], newData);
    UniqueCodeFound(r.db, code, CopyDetails(db[k0], newData));
  }

  /**
   * `DeleteByCodeAsync`: `false` with nothing removed when the lookup finds no
   * company; otherwise the store's predicate delete, which removes the
   * company with that code at every site.
   */
  ghost function DeleteByCode(db: Store.Db<Company>, nulls: Nulls, code: string): (r: Store.Stored<Company, bool>)
    ensures r.result <==> !AllNull(nulls) && HasCode(db, code)
    ensures !r.result ==> r.db == db
    ensures r.db.Keys <= db.Keys
    ensures forall k :: k in r.db ==> r.db[k] == db[k]
    ensures Store.Consistent(db, KeyOf) ==> Store.Consistent(r.db, KeyOf)
    ensures Store.Consistent(db, KeyOf) && r.result ==>
              forall k :: k in r.db <==> k in db && db[k].companyCode != code
  {
    MatchingCode(db, code);
    if FirstMatch(db, nulls, WithCode(code)).None? then
      Store.Stored(db, false)
    else
      var d := Store.Delete(db, KeyOf, WithCode(code));
      Store.Stored(d.db, RetryBool(_ => d.result, MaxRetries).result)
  }

  /** After a successful delete by code, no company with that code is left to find. */
  lemma DeleteThenGetByCode(db: Store.Db<Company>, nulls: Nulls, code: string, later: Nulls)
    requires Store.Consistent(db, KeyOf)
    requires DeleteByCode(db, nulls, code).result
    ensures GetByCode(DeleteByCode(db, nulls, code).db, later, code).None?
  {
    var r := DeleteByCode(db, nulls, code);
    assert !HasCode(r.db, code);
  }
}

=== FILE: employee_repository.dfy ===
/**
 * `EmployeeRepository` over the in-memory store. It looks employees up by
 * `EmployeeCode` and checks uniqueness on (SiteId, EmployeeCode), while the
 * store it writes to keys every entity by (SiteId, CompanyCode).
 */
module EmployeeRepository {
  import opened Wrappers
  import opened Results
  import Store
  import opened Retry
  import opened Lookup
  import opened Employees

  const AlreadyExists: string := "Employee already exists with the same code."
  const Saved: string := "Employee saved successfully."
  const SaveFailed: string := "Failed to save employee."
  const NotFound: string := "Employee not found."
  const Updated: string := "Employee updated successfully."
  const UpdateFailed: string := "Failed to update employee."

  function WithCode(code: string): Employee -> bool
  {
    (e: Employee) => e.employeeCode == code
  }

  /** The uniqueness filter of `SaveEmployeeAsync`: same `SiteId` and same `EmployeeCode`. */
  function SameSiteAndCode(e: Employee): Employee -> bool
  {
    (x: Employee) => x.siteId == e.siteId && x.employeeCode == e.employeeCode
  }

  predicate HasCode(db: Store.Db<Employee>, code: string)
  {
    exists k :: k in db && db[k].employeeCode == code
  }

  predicate HasSiteAndCode(db: Store.Db<Employee>, e: Employee)
  {
    exists k :: k in db && db[k].siteId == e.siteId && db[k].employeeCode == e.employeeCode
  }

  lemma MatchingCode(db: Store.Db<Employee>, code: string)
    ensures Store.Matching(db, WithCode(code)) == {} <==> !HasCode(db, code)
  {
    if k :| k in db && db[k].employeeCode == code {
      assert k in Store.Matching(db, WithCode(code));
    }
  }

  lemma MatchingSiteAndCode(db: Store.Db<Employee>, e: Employee)
    ensures Store.Matching(db, SameSiteAndCode(e)) == {} <==> !HasSiteAndCode(db, e)
  {
    if k :| k in db && db[k].siteId == e.siteId && db[k].employeeCode == e.employeeCode {
      assert k in Store.Matching(db, SameSiteAndCode(e));
    }
  }

  /** `GetAllAsync`: every stored employee once, or null when every attempt came back null. */
  ghost function GetAll(db: Store.Db<Employee>, nulls: Nulls): (r: Option<seq<Employee>>)
    ensures r.None? <==> AllNull(nulls)
    ensures r.Some? ==> |r.value| == |db|
    ensures r.Some? ==> forall i :: 0 <= i < |r.value| ==> r.value[i] in db.Values
    ensures r.Some? ==> forall k :: k in db ==> db[k] in r.value
    ensures r.Some? ==> r.value == Store.FindAll(db)
  {
    Query(nulls, Store.FindAll(db))
  }

  /** `GetByCodeAsync`: some stored employee with that code, or null. */
  ghost function GetByCode(db: Store.Db<Employee>, nulls: Nulls, code: string): (r: Option<Employee>)
    ensures r.Some? ==> r.value in db.Values && r.value.employeeCode == code
    ensures r.None? <==> AllNull(nulls) || !HasCode(db, code)
  {
    MatchingCode(db, code);
    match FirstMatch(db, nulls, WithCode(code))
    case None => None
    case Some(k) => Some(db[k])
  }

  /**
   * `SaveEmployeeAsync`: refused when the lookup finds an employee with the
   * same site and employee code; otherwise the result of the (retried) insert,
   * which is keyed by site and company code.
   */
  ghost function Save(db: Store.Db<Employee>, nulls: Nulls, e: Employee): (r: Store.Stored<Employee, Outcome>)
    ensures r.result.message == AlreadyExists <==> !AllNull(nulls) && HasSiteAndCode(db, e)
    ensures r.result.success <==> r.result.message == Saved
    ensures r.result.message == AlreadyExists || r.result.message == Saved || r.result.message == SaveFailed
    ensures r.result.success ==> KeyOf(e) !in db && r.db == db[KeyOf(e) := e]
    ensures r.result.message != AlreadyExists ==> (r.result.success <==> KeyOf(e) !in db)
    ensures !r.result.success ==> r.db == db
    ensures Store.Consistent(db, KeyOf) ==> Store.Consistent(r.db, KeyOf)
  {
    MatchingSiteAndCode(db, e);
    if FirstMatch(db, nulls, SameSiteAndCode(e)).Some? then
      Store.Stored(db, Outcome(false, AlreadyExists))
    else
      var ins := Store.Insert(db, KeyOf, e);
      var ok := RetryBool(_ => ins.result, MaxRetries).result;
      Store.Stored(ins.db, Outcome(ok, if ok then Saved else SaveFailed))
  }

  /**
   * The key mismatch made visible: a new employee whose site and employee code
   * are unused, but whose company already has an employee stored at that site,
   * passes the uniqueness check and is then refused by the store's insert.
   */
  lemma SecondEmployeeOfCompanyFails(db: Store.Db<Employee>, nulls: Nulls, e: Employee)
    requires KeyOf(e) in db && !HasSiteAndCode(db, e)
    ensures Save(db, nulls, e) == Store.Stored(db, Outcome(false, SaveFailed))
  {
  }

  /** An employee saved under a free key and an unused code is what a lookup by that code finds. */
  lemma SaveThenGetByCode(db: Store.Db<Employee>, nulls: Nulls, e: Employee)
    requires KeyOf(e) !in db && !HasCode(db, e.employeeCode)
    ensures Save(db, nulls, e).result.success
    ensures GetByCode(Save(db, nulls, e).db, Reliable(), e.employeeCode) == Some(e)
  {
    assert !HasSiteAndCode(db, e);
    var after := db[KeyOf(e) := e];
    assert Save(db, nulls, e).db == after;
    assert after[KeyOf(e)] == e;
    UniqueCodeFound(after, e.employeeCode, e);
  }

  /** When exactly one stored employee has a code, a reliable lookup by that code finds it. */
  lemma UniqueCodeFound(db: Store.Db<Employee>, code: string, e: Employee)
    requires HasCode(db, code)
    requires forall k :: k in db && db[k].employeeCode == code ==> db[k] == e
    ensures GetByCode(db, Reliable(), code) == Some(e)
  {
    ReliableAnswers();
  }

  /**
   * `UpdateByCodeAsync`: "Employee not found." when the lookup finds nobody;
   * otherwise the found employee's six detail fields are overwritten in place
   * and the store's `Update` is retried with it.
   */
  ghost function UpdateByCode(db: Store.Db<Employee>, nulls: Nulls, code: string, newData: Employee): (r: Store.Stored<Employee, Outcome>)
    ensures r.db.Keys == db.Keys
    ensures AllNull(nulls) || !HasCode(db, code) ==> r == Store.Stored(db, Outcome(false, NotFound))
    ensures r.result.success <==> r.result.message == Updated
    ensures r.result.message == NotFound || r.result.message == Updated || r.result.message == UpdateFailed
    ensures Store.Consistent(db, KeyOf) ==> Store.Consistent(r.db, KeyOf)
    ensures Store.Consistent(db, KeyOf) ==> (r.result.success <==> !AllNull(nulls) && HasCode(db, code))
    ensures Store.Consistent(db, KeyOf) && r.result.success ==>
              exists k :: k in db && db[k].employeeCode == code && r.db == db[k := CopyDetails(db[k], newData)]
  {
    MatchingCode(db, code);
    match FirstMatch(db, nulls, WithCode(code))
    case None => Store.Stored(db, Outcome(false, NotFound))
    case Some(k) =>
      var up := UpdateFound(db, k, newData);
      Store.Stored(up.db, Outcome(up.result, if up.result then Updated else UpdateFailed))
  }

  /**
   * The found branch of `UpdateByCodeAsync`: the stored employee under `k` is
   * overwritten in place, then `Update` stores it under its own key. In a
   * consistent store that key is `k`, so the update succeeds at once.
   */
  function UpdateFound(db: Store.Db<Employee>, k: Store.Key, newData: Employee): (r: Store.Stored<Employee, bool>)
    requires k in db
    ensures r.db.Keys == db.Keys
    ensures Store.Consistent(db, KeyOf) ==> r == Store.Stored(db[k := CopyDetails(db[k], newData)], true)
    ensures Store.Consistent(db, KeyOf) ==> Store.Consistent(r.db, KeyOf)
  {
    var updated := CopyDetails(db[k], newData);
    var up := Store.Update(db[k := updated], KeyOf, updated);
    Store.Stored(up.db, RetryBool(_ => up.result, MaxRetries).result)
  }

  /**
   * A successful update changes no stored employee's site, company code or
   * employee code, whatever `newData` carries in those fields.
   */
  lemma UpdateKeepsIdentity(db: Store.Db<Employee>, nulls: Nulls, code: string, newData: Employee)
    requires Store.Consistent(db, KeyOf)
    ensures var r := UpdateByCode(db, nulls, code, newData);
      forall k :: k in r.db ==>
        && r.db[k].siteId == db[k].siteId
        && r.db[k].companyCode == db[k].companyCode
        && r.db[k].employeeCode == db[k].employeeCode
  {
    var r := UpdateByCode(db, nulls, code, newData);
    if AllNull(nulls) || !HasCode(db, code) {
      assert r.db == db;
    } else {
      assert r.result.success;
      var k0 :| k0 in db && db[k0].employeeCode == code && r.db == db[k0 := CopyDetails(db[k0], newData)];
      IdentityKept(db, k0, newData);
    }
  }

  lemma IdentityKept(db: Store.Db<Employee>, k0: Store.Key, newData: Employee)
    requires k0 in db
    ensures var after := db[k0 := CopyDetails(db[k0], newData)];
      forall k :: k in after ==>
        && after[k].siteId == db[k].siteId
        && after[k].companyCode == db[k].companyCode
        && after[k].employeeCode == db[k].employeeCode
  {
  }

  /**
   * `DeleteByCodeAsync`: `false` with nothing removed when the lookup finds no
   * employee; otherwise the store's predicate delete on the employee code.
   */
  ghost function DeleteByCode(db: Store.Db<Employee>, nulls: Nulls, code: string): (r: Store.Stored<Employee, bool>)
    ensures r.result <==> !AllNull(nulls) && HasCode(db, code)
    ensures !r.result ==> r.db == db
    ensures r.db.Keys <= db.Keys
    ensures forall k :: k in r.db ==> r.db[k] == db[k]
    ensures Store.Consistent(db, KeyOf) ==> Store.Consistent(r.db, KeyOf)
    ensures Store.Consistent(db, KeyOf) && r.result ==>
              forall k :: k in r.db <==> k in db && db[k].employeeCode != code
  {
    MatchingCode(db, code);
    if FirstMatch(db, nulls, WithCode(code)).None? then
      Store.Stored(db, false)
    else
      var d := Store.Delete(db, KeyOf, WithCode(code));
      Store.Stored(d.db, RetryBool(_ => d.result, MaxRetries).result)
  }

  /** After a successful delete by code, no employee with that code is left to find. */
  lemma DeleteThenGetByCode(db: Store.Db<Employee>, nulls: Nulls, code: string, later: Nulls)
    requires Store.Consistent(db, KeyOf)
    requires DeleteByCode(db, nulls, code).result
    ensures GetByCode(DeleteByCode(db, nulls, code).db, later, code).None?
  {
    var r := DeleteByCode(db, nulls, code);
    assert !HasCode(r.db, code);
  }
}

=== FILE: employee_service.dfy ===
/**
 * `EmployeeService`: the employee operations seen by callers, built on both
 * repositories over the in-memory store (whose lookups never come back null).
 * It resolves an employee's company by name on writes, stamps that company's
 * code and site onto the employee, and adds the company's name to what it
 * reads. The object mapper is a parameter.
 */
module EmployeeService {
  import opened Wrappers
  import opened Results
  import Store
  import opened Lookup
  import Companies
  import Employees
  import CompanyRepository
  import EmployeeRepository

  type Company = Companies.Company
  type Employee = Employees.Employee

  /** What callers see of an employee; `companyName` is filled in by the service. */
  datatype EmployeeInfo = EmployeeInfo(
    siteId: string,
    companyCode: string,
    employeeCode: string,
    employeeName: string,
    occupationName: string,
    employeeStatus: string,
    emailAddress: string,
    phoneNumber: string,
    lastModifiedDateTime: int,
    companyName: Option<string>)

  /** The object mapper in both directions, left abstract. */
  datatype Mapper = Mapper(toInfo: Employee -> EmployeeInfo, toEmployee: EmployeeInfo -> Employee)

  /** The mapper carries the employee code over to the info. */
  ghost predicate KeepsCode(m: Mapper)
  {
    forall e :: m.toInfo(e).employeeCode == e.employeeCode
  }

  /** A service call that either rejects a null argument or returns a value. */
  datatype Call<R> = ArgumentNull | Returned(value: R)

  const CompanyOfEmployeeNotFound: string := "Company of that Employee is not found."

  /** The message of `UpdateEmployeeByCodeAsync` for an unknown company name; null interpolates as "". */
  function CompanyNameNotFound(name: Option<string>): string
  {
    "Company with name " + (if name.Some? then name.value else "") + " not found."
  }

  /** The company name shown for a company code: some company with that code, or null. */
  ghost function CompanyNameOf(companies: Store.Db<Company>, code: string): (r: Option<string>)
    ensures r.Some? <==> CompanyRepository.HasCode(companies, code)
    ensures r.Some? ==> exists k :: k in companies && companies[k].companyCode == code && companies[k].companyName == r.value
  {
    ReliableAnswers();
    match CompanyRepository.GetByCode(companies, Reliable(), code)
    case None => None
    case Some(c) => Some(c.companyName)
  }

  /** An employee's info with its company's name, as every read of the service returns it. */
  ghost function Enriched(companies: Store.Db<Company>, m: Mapper, e: Employee): EmployeeInfo
  {
    m.toInfo(e).(companyName := CompanyNameOf(companies, e.companyCode))
  }

  /** `GetByNameAsync` with a possibly null name: no stored company has a null name. */
  ghost function CompanyNamed(companies: Store.Db<Company>, name: Option<string>): (r: Option<Company>)
    ensures r.Some? ==> name.Some? && r.value in companies.Values && r.value.companyName == name.value
    ensures r.None? <==> name.None? || !CompanyRepository.HasName(companies, name.value)
  {
    ReliableAnswers();
    if name.None? then None else CompanyRepository.GetByName(companies, Reliable(), name.value)
  }

  /** The mapped employee with the company's code and site stamped on. */
  function Stamp(e: Employee, c: Company): (r: Employee)
    ensures r.companyCode == c.companyCode && r.siteId == c.siteId
    ensures forall f :: f != Employees.SiteId && f != Employees.CompanyCode ==> Employees.Get(r, f) == Employees.Get(e, f)
  {
    e.(companyCode := c.companyCode, siteId := c.siteId)
  }

  // ---------------------------------------------------------------- reads

  /** `List.First(e => e.EmployeeCode.Equals(code))`, as an index; `None` where it would throw. */
  function FirstWithCode(infos: seq<EmployeeInfo>, code: string): (r: Option<nat>)
    ensures r.Some? ==> r.value < |infos| && infos[r.value].employeeCode == code
    ensures r.Some? ==> forall j :: 0 <= j < r.value ==> infos[j].employeeCode != code
    ensures r.None? ==> forall j :: 0 <= j < |infos| ==> infos[j].employeeCode != code
  {
    FirstFrom(infos, code, 0)
  }

  function FirstFrom(infos: seq<EmployeeInfo>, code: string, i: nat): (r: Option<nat>)
    requires i <= |infos|
    requires forall j :: 0 <= j < i ==> infos[j].employeeCode != code
    ensures r.Some? ==> i <= r.value < |infos| && infos[r.value].employeeCode == code
    ensures r.Some? ==> forall j :: 0 <= j < r.value ==> infos[j].employeeCode != code
    ensures r.None? ==> forall j :: 0 <= j < |infos| ==> infos[j].employeeCode != code
    decreases |infos| - i
  {
    if i == |infos| then None
    else if infos[i].employeeCode == code then Some(i)
    else FirstFrom(infos, code, i + 1)
  }

  /** Every employee's code occurs among the infos. */
  predicate Covers(infos: seq<EmployeeInfo>, es: seq<Employee>)
  {
    forall i :: 0 <= i < |es| ==> exists j :: 0 <= j < |infos| && infos[j].employeeCode == es[i].employeeCode
  }

  /**
   * The enrichment loop of `GetAllEmployeesAsync`: for each employee in turn,
   * the first info with its code gets the name of the employee's company.
   * `None` where `First` finds no info and throws.
   */
  ghost function Enrich(companies: Store.Db<Company>, es: seq<Employee>, infos: seq<EmployeeInfo>): (r: Option<seq<EmployeeInfo>>)
    ensures r.Some? ==> |r.value| == |infos|
    ensures r.Some? ==> forall j :: 0 <= j < |infos| ==> r.value[j] == infos[j].(companyName := r.value[j].companyName)
    ensures Covers(infos, es) ==> r.Some?
    decreases |es|
  {
    if es == [] then Some(infos)
    else
      assert Covers(infos, es) ==> FirstWithCode(infos, es[0].employeeCode).Some? by {
        if Covers(infos, es) {
          assert 0 <= 0 < |es|;
          assert exists j :: 0 <= j < |infos| && infos[j].employeeCode == es[0].employeeCode;
        }
      }
      match FirstWithCode(infos, es[0].employeeCode)
      case None => None
      case Some(j) =>
        var next := infos[j := infos[j].(companyName := CompanyNameOf(companies, es[0].companyCode))];
        CoversAfterNaming(infos, es, j, CompanyNameOf(companies, es[0].companyCode));
        Enrich(companies, es[1..], next)
  }

  /** Naming one info's company keeps every code in place, so what was covered stays covered. */
  lemma CoversAfterNaming(infos: seq<EmployeeInfo>, es: seq<Employee>, j: nat, name: Option<string>)
    requires j < |infos| && |es| > 0
    ensures Covers(infos, es) ==> Covers(infos[j := infos[j].(companyName := name)], es[1..])
  {
    var next := infos[j := infos[j].(companyName := name)];
    if Covers(infos, es) {
      forall i | 0 <= i < |es[1..]|
        ensures exists j' :: 0 <= j' < |next| && next[j'].employeeCode == es[1..][i].employeeCode
      {
        assert es[1..][i] == es[i + 1];
        var j' :| 0 <= j' < |infos| && infos[j'].employeeCode == es[i + 1].employeeCode;
        assert next[j'].employeeCode == infos[j'].employeeCode;
      }
      var tail := es[1..];
      assert forall i :: 0 <= i < |tail| ==> exists j' :: 0 <= j' < |next| && next[j'].employeeCode == tail[i].employeeCode;
      assert Covers(next, tail);
    }
  }

  /** The infos the mapper makes of `es`, before enrichment. */
  function MapAll(m: Mapper, es: seq<Employee>): (r: seq<EmployeeInfo>)
    ensures |r| == |es| && forall i :: 0 <= i < |es| ==> r[i] == m.toInfo(es[i])
  {
    seq(|es|, i requires 0 <= i < |es| => m.toInfo(es[i]))
  }

  /**
   * `GetAllEmployeesAsync`: all employees mapped to infos and enriched with
   * their company's name; an empty list where `First` would throw.
   */
  ghost function GetAllEmployees(companies: Store.Db<Company>, employees: Store.Db<Employee>, m: Mapper): (r: seq<EmployeeInfo>)
    ensures |r| == 0 || |r| == |employees|
    ensures KeepsCode(m) ==> |r| == |employees|
  {
    ReliableAnswers();
    match EmployeeRepository.GetAll(employees, Reliable())
    case None => assert false; []
    case Some(es) =>
      var infos := MapAll(m, es);
      assert KeepsCode(m) ==> Covers(infos, es) by {
        if KeepsCode(m) {
          forall i | 0 <= i < |es| ensures exists j :: 0 <= j < |infos| && infos[j].employeeCode == es[i].employeeCode {
            assert infos[i].employeeCode == es[i].employeeCode;
          }
        }
      }
      match Enrich(companies, es, infos)
      case None => []
      case Some(enriched) => enriched
  }

  /** The infos of `es` with the first `n` already enriched. */
  ghost function EnrichedUpTo(companies: Store.Db<Company>, m: Mapper, es: seq<Employee>, n: nat): (r: seq<EmployeeInfo>)
    ensures |r| == |es|
    ensures forall i :: 0 <= i < |es| ==> r[i] == if i < n then Enriched(companies, m, es[i]) else m.toInfo(es[i])
  {
    seq(|es|, i requires 0 <= i < |es| => if i < n then Enriched(companies, m, es[i]) else m.toInfo(es[i]))
  }

  /** Distinct employee codes along `es`. */
  predicate DistinctCodes(es: seq<Employee>)
  {
    forall i, j :: 0 <= i < j < |es| ==> es[i].employeeCode != es[j].employeeCode
  }

  /**
   * With a code-keeping mapper and distinct codes, the enrichment loop from
   * position `n` on finishes the job: every info gets its own company's name.
   */
  lemma {:induction false} EnrichFrom(companies: Store.Db<Company>, m: Mapper, es: seq<Employee>, n: nat)
    requires KeepsCode(m) && DistinctCodes(es) && n <= |es|
    ensures Enrich(companies, es[n..], EnrichedUpTo(companies, m, es, n)) == Some(EnrichedUpTo(companies, m, es, |es|))
    decreases |es| - n
  {
    if n == |es| {
      assert es[n..] == [];
    } else {
      var infos := EnrichedUpTo(companies, m, es, n);
      var e := es[n];
      assert es[n..][0] == e && es[n..][1..] == es[n + 1..];
      FirstUnenriched(companies, m, es, n);
      EnrichStep(companies, m, es, n);
      EnrichFrom(companies, m, es, n + 1);
    }
  }

  /** With distinct codes, the first info with the `n`-th employee's code is the `n`-th. */
  lemma FirstUnenriched(companies: Store.Db<Company>, m: Mapper, es: seq<Employee>, n: nat)
    requires KeepsCode(m) && DistinctCodes(es) && n < |es|
    ensures FirstWithCode(EnrichedUpTo(companies, m, es, n), es[n].employeeCode) == Some(n)
  {
    var infos := EnrichedUpTo(companies, m, es, n);
    assert infos[n].employeeCode == es[n].employeeCode;
    forall j | 0 <= j < n ensures infos[j].employeeCode != es[n].employeeCode {
      assert infos[j].employeeCode == es[j].employeeCode;
    }
  }

  /** Naming the `n`-th info's company extends the enriched prefix by one. */
  lemma EnrichStep(companies: Store.Db<Company>, m: Mapper, es: seq<Employee>, n: nat)
    requires n < |es|
    ensures var infos := EnrichedUpTo(companies, m, es, n);
      infos[n := infos[n].(companyName := CompanyNameOf(companies, es[n].companyCode))] == EnrichedUpTo(companies, m, es, n + 1)
  {
  }

  /** No two stored employees share an employee code. */
  predicate UniqueCodes(employees: Store.Db<Employee>)
  {
    forall k1, k2 :: k1 in employees && k2 in employees && employees[k1].employeeCode == employees[k2].employeeCode ==> k1 == k2
  }

  /**
   * With a code-keeping mapper and unique employee codes, `GetAllEmployeesAsync`
   * returns one info per stored employee, in enumeration order, each carrying
   * the name of the company its `CompanyCode` names (or null).
   */
  lemma GetAllEmployeesEnriched(companies: Store.Db<Company>, employees: Store.Db<Employee>, m: Mapper)
    requires KeepsCode(m) && UniqueCodes(employees)
    ensures var r := GetAllEmployees(companies, employees, m);
      var es := Store.FindAll(employees);
      && |r| == |es| == |employees|
      && forall i :: 0 <= i < |r| ==> r[i] == Enriched(companies, m, es[i])
  {
    var es := Store.FindAll(employees);
    GetAllIsEnrich(companies, employees, m);
    FindAllDistinctCodes(employees);
    EnrichAll(companies, m, es);
  }

  /** Stored employees with unique codes are listed with distinct codes. */
  lemma FindAllDistinctCodes(employees: Store.Db<Employee>)
    requires UniqueCodes(employees)
    ensures DistinctCodes(Store.FindAll(employees))
  {
    Store.FindAllOnceEach(employees, (e: Employee) => e.employeeCode);
  }

  /** The whole enrichment loop over the mapped infos of `es` enriches every one of them. */
  lemma EnrichAll(companies: Store.Db<Company>, m: Mapper, es: seq<Employee>)
    requires KeepsCode(m) && DistinctCodes(es)
    ensures Enrich(companies, es, MapAll(m, es)) == Some(EnrichedUpTo(companies, m, es, |es|))
  {
    EnrichFrom(companies, m, es, 0);
    assert es[0..] == es;
    assert EnrichedUpTo(companies, m, es, 0) == MapAll(m, es);
  }

  /** Over the in-memory store the list of employees is always there: the result is the enrichment's. */
  lemma GetAllIsEnrich(companies: Store.Db<Company>, employees: Store.Db<Employee>, m: Mapper)
    ensures var es := Store.FindAll(employees);
      var e := Enrich(companies, es, MapAll(m, es));
      GetAllEmployees(companies, employees, m) == if e.Some? then e.value else []
  {
    ReliableAnswers();
    assert EmployeeRepository.GetAll(employees, Reliable()) == Some(Store.FindAll(employees));
  }

  /** `GetEmployeeByCodeAsync`: the enriched info of some employee with that code, or null. */
  ghost function GetEmployeeByCode(companies: Store.Db<Company>, employees: Store.Db<Employee>, m: Mapper, code: string): (r: Option<EmployeeInfo>)
    ensures r.None? <==> !EmployeeRepository.HasCode(employees, code)
    ensures r.Some? ==> exists k :: k in employees && employees[k].employeeCode == code && r.value == Enriched(companies, m, employees[k])
  {
    ReliableAnswers();
    match EmployeeRepository.GetByCode(employees, Reliable(), code)
    case None => None
    case Some(e) => Some(Enriched(companies, m, e))
  }

  // ---------------------------------------------------------------- writes

  /**
   * `AddEmployeeAsync`: a null info is rejected before any repository call;
   * an unknown company name is reported; otherwise the mapped employee, with
   * the company's code and site stamped on, is saved and the repository's
   * result passed back unchanged.
   */
  ghost function AddEmployee(companies: Store.Db<Company>, employees: Store.Db<Employee>, m: Mapper, info: Option<EmployeeInfo>): (r: Store.Stored<Employee, Call<Outcome>>)
    ensures info.None? ==> r == Store.Stored(employees, ArgumentNull)
    ensures info.Some? && CompanyNamed(companies, info.value.companyName).None? ==>
              r == Store.Stored(employees, Returned(Outcome(false, CompanyOfEmployeeNotFound)))
    ensures info.Some? && CompanyNamed(companies, info.value.companyName).Some? ==>
              exists c :: c in companies.Values && Some(c.companyName) == info.value.companyName &&
                r == (var s := EmployeeRepository.Save(employees, Reliable(), Stamp(m.toEmployee(info.value), c));
                      Store.Stored(s.db, Returned(s.result)))
  {
    if info.None? then Store.Stored(employees, ArgumentNull)
    else
      match CompanyNamed(companies, info.value.companyName)
      case None => Store.Stored(employees, Returned(Outcome(false, CompanyOfEmployeeNotFound)))
      case Some(c) =>
        var s := EmployeeRepository.Save(employees, Reliable(), Stamp(m.toEmployee(info.value), c));
        Store.Stored(s.db, Returned(s.result))
  }

  /**
   * A successful add stores exactly one new employee, under a free key, and
   * it belongs to a company carrying the name the caller gave.
   */
  lemma AddEmployeeStoresStamped(companies: Store.Db<Company>, employees: Store.Db<Employee>, m: Mapper, info: EmployeeInfo)
    ensures AddEmployee(companies, employees, m, Some(info)).result == Returned(Outcome(true, EmployeeRepository.Saved)) ==>
      exists e: Employee, c: Company ::
        && c in companies.Values && Some(c.companyName) == info.companyName
        && e.companyCode == c.companyCode && e.siteId == c.siteId
        && Employees.KeyOf(e) !in employees
        && AddEmployee(companies, employees, m, Some(info)).db == employees[Employees.KeyOf(e) := e]
  {
    if AddEmployee(companies, employees, m, Some(info)).result != Returned(Outcome(true, EmployeeRepository.Saved)) {
      return;
    }
    var c :| c in companies.Values && Some(c.companyName) == info.companyName &&
      AddEmployee(companies, employees, m, Some(info)) ==
        (var s := EmployeeRepository.Save(employees, Reliable(), Stamp(m.toEmployee(info), c)); Store.Stored(s.db, Returned(s.result)));
    var e := Stamp(m.toEmployee(info), c);
    assert EmployeeRepository.Save(employees, Reliable(), e).result.success;
  }

  /**
   * `UpdateEmployeeByCodeAsync`: a null info is rejected; an unknown company
   * name is reported with the name in the message; otherwise the repository's
   * update result is passed back unchanged.
   */
  ghost function UpdateEmployeeByCode(companies: Store.Db<Company>, employees: Store.Db<Employee>, m: Mapper, code: string, info: Option<EmployeeInfo>): (r: Store.Stored<Employee, Call<Outcome>>)
    ensures info.None? ==> r == Store.Stored(employees, ArgumentNull)
    ensures info.Some? && CompanyNamed(companies, info.value.companyName).None? ==>
              r == Store.Stored(employees, Returned(Outcome(false, CompanyNameNotFound(info.value.companyName))))
    ensures info.Some? && CompanyNamed(companies, info.value.companyName).Some? ==>
              exists c :: c in companies.Values && Some(c.companyName) == info.value.companyName &&
                r == (var u := EmployeeRepository.UpdateByCode(employees, Reliable(), code, Stamp(m.toEmployee(info.value), c));
                      Store.Stored(u.db, Returned(u.result)))
  {
    if info.None? then Store.Stored(employees, ArgumentNull)
    else
      match CompanyNamed(companies, info.value.companyName)
      case None => Store.Stored(employees, Returned(Outcome(false, CompanyNameNotFound(info.value.companyName))))
      case Some(c) =>
        var u := EmployeeRepository.UpdateByCode(employees, Reliable(), code, Stamp(m.toEmployee(info.value), c));
        Store.Stored(u.db, Returned(u.result))
  }

  /**
   * Through the service, an update never moves a stored employee: the
   * company's code and site it stamps on are discarded by the repository's
   * field copy, so no stored site, company code or employee code changes.
   */
  lemma UpdateNeverMovesEmployee(companies: Store.Db<Company>, employees: Store.Db<Employee>, m: Mapper, code: string, info: Option<EmployeeInfo>)
    requires Store.Consistent(employees, Employees.KeyOf)
    ensures var r := UpdateEmployeeByCode(companies, employees, m, code, info);
      && r.db.Keys == employees.Keys
      && forall k :: k in r.db ==>
           && r.db[k].siteId == employees[k].siteId
           && r.db[k].companyCode == employees[k].companyCode
           && r.db[k].employeeCode == employees[k].employeeCode
  {
    if info.Some? && CompanyNamed(companies, info.value.companyName).Some? {
      var c :| c in companies.Values && Some(c.companyName) == info.value.companyName &&
        UpdateEmployeeByCode(companies, employees, m, code, info) ==
          (var u := EmployeeRepository.UpdateByCode(employees, Reliable(), code, Stamp(m.toEmployee(info.value), c));
           Store.Stored(u.db, Returned(u.result)));
      EmployeeRepository.UpdateKeepsIdentity(employees, Reliable(), code, Stamp(m.toEmployee(info.value), c));
    }
  }

  /** `DeleteEmployeeByCodeAsync`: the repository's delete, its result passed back unchanged. */
  ghost function DeleteEmployeeByCode(employees: Store.Db<Employee>, code: string): (r: Store.Stored<Employee, bool>)
    ensures r.result <==> EmployeeRepository.HasCode(employees, code)
    ensures !r.result ==> r.db == employees
    ensures r.db.Keys <= employees.Keys
    ensures forall k :: k in r.db ==> r.db[k] == employees[k]
    ensures Store.Consistent(employees, Employees.KeyOf) ==>
              forall k :: k in r.db <==> k in employees && employees[k].employeeCode != code
  {
    ReliableAnswers();
    EmployeeRepository.DeleteByCode(employees, Reliable(), code)
  }
}

=== FILE: entities.dfy ===
/**
 * The two stored entity types. Both inherit `SiteId` and `CompanyCode` from
 * `DataEntity`, and the store keys every entity by that pair. Each module
 * also gives the entity's properties as an enumeration, so that the store's
 * by-name patch resolves a property name (ignoring case) and sets it.
 */
module Companies {
  import opened Wrappers
  import opened Fields
  import Store

  datatype Company = Company(
    siteId: string,
    companyCode: string,
    companyName: string,
    addressLine1: string,
    addressLine2: string,
    addressLine3: string,
    country: string,
    equipmentCompanyCode: string,
    faxNumber: string,
    phoneNumber: string,
    postalZipCode: string,
    lastModified: int)

  /** The store key of a company: (SiteId, CompanyCode). */
  function KeyOf(c: Company): Store.Key
  {
    (c.siteId, c.companyCode)
  }

  datatype Field =
    | SiteId | CompanyCode | CompanyName | AddressLine1 | AddressLine2 | AddressLine3
    | Country | EquipmentCompanyCode | FaxNumber | PhoneNumber | PostalZipCode | LastModified

  /** The properties in declaration order; every `Field` occurs once. */
  const AllFields: seq<Field> := [
    SiteId, CompanyCode, CompanyName, AddressLine1, AddressLine2, AddressLine3,
    Country, EquipmentCompanyCode, FaxNumber, PhoneNumber, PostalZipCode, LastModified]

  lemma AllFieldsListed()
    ensures forall f: Field :: f in AllFields
  {
    forall f: Field ensures f in AllFields {
      match f
      case SiteId => assert AllFields[0] == f;
      case CompanyCode => assert AllFields[1] == f;
      case CompanyName => assert AllFields[2] == f;
      case AddressLine1 => assert AllFields[3] == f;
      case AddressLine2 => assert AllFields[4] == f;
      case AddressLine3 => assert AllFields[5] == f;
      case Country => assert AllFields[6] == f;
      case EquipmentCompanyCode => assert AllFields[7] == f;
      case FaxNumber => assert AllFields[8] == f;
      case PhoneNumber => assert AllFields[9] == f;
      case PostalZipCode => assert AllFields[10] == f;
      case LastModified => assert AllFields[11] == f;
    }
  }

  function Name(f: Field): string
  {
    match f
    case SiteId => "SiteId"
    case CompanyCode => "CompanyCode"
    case CompanyName => "CompanyName"
    case AddressLine1 => "AddressLine1"
    case AddressLine2 => "AddressLine2"
    case AddressLine3 => "AddressLine3"
    case Country => "Country"
    case EquipmentCompanyCode => "EquipmentCompanyCode"
    case FaxNumber => "FaxNumber"
    case PhoneNumber => "PhoneNumber"
    case PostalZipCode => "PostalZipCode"
    case LastModified => "LastModified"
  }

  /** `typeof(Company).GetProperty(name, IgnoreCase | Public | Instance)`. */
  function Resolve(name: string): (r: Option<Field>)
    ensures r.Some? ==> SameIgnoringCase(Name(r.value), name)
    ensures r.None? ==> forall f: Field :: !SameIgnoringCase(Name(f), name)
  {
    AllFieldsListed();
    Lookup(AllFields, Name, name)
  }

  /** The fields that make up the store key. */
  predicate IsKeyField(f: Field)
  {
    f == SiteId || f == CompanyCode
  }

  function Get(c: Company, f: Field): Value
  {
    match f
    case SiteId => Text(c.siteId)
    case CompanyCode => Text(c.companyCode)
    case CompanyName => Text(c.companyName)
    case AddressLine1 => Text(c.addressLine1)
    case AddressLine2 => Text(c.addressLine2)
    case AddressLine3 => Text(c.addressLine3)
    case Country => Text(c.country)
    case EquipmentCompanyCode => Text(c.equipmentCompanyCode)
    case FaxNumber => Text(c.faxNumber)
    case PhoneNumber => Text(c.phoneNumber)
    case PostalZipCode => Text(c.postalZipCode)
    case LastModified => Stamp(c.lastModified)
  }

  /** The kind of value a property accepts: a timestamp for `LastModified`, text otherwise. */
  predicate Accepts(f: Field, v: Value)
  {
    if f == LastModified then v.Stamp? else v.Text?
  }

  /**
   * `PropertyInfo.SetValue`: sets exactly field `f`; a value of the wrong
   * kind makes it throw, modelled as `None`.
   */
  function Set(c: Company, f: Field, v: Value): (r: Option<Company>)
    ensures r.Some? <==> Accepts(f, v)
    ensures r.Some? ==> Get(r.value, f) == v
    ensures r.Some? ==> forall g :: g != f ==> Get(r.value, g) == Get(c, g)
  {
    if !Accepts(f, v) then None
    else
      Some(match f
        case SiteId => c.(siteId := v.text)
        case CompanyCode => c.(companyCode := v.text)
        case CompanyName => c.(companyName := v.text)
        case AddressLine1 => c.(addressLine1 := v.text)
        case AddressLine2 => c.(addressLine2 := v.text)
        case AddressLine3 => c.(addressLine3 := v.text)
        case Country => c.(country := v.text)
        case EquipmentCompanyCode => c.(equipmentCompanyCode := v.text)
        case FaxNumber => c.(faxNumber := v.text)
        case PhoneNumber => c.(phoneNumber := v.text)
        case PostalZipCode => c.(postalZipCode := v.text)
        case LastModified => c.(lastModified := v.ticks))
  }

  /** What reflection gives the store for `Company`. */
  function Schema(): Store.Schema<Company, Field, Value>
  {
    Store.Schema(KeyOf, Resolve, Set)
  }

  /**
   * `UpdateCompanyDetails`: the ten listed fields come from `newData`; the key
   * fields stay those of `existing`.
   */
  function CopyDetails(existing: Company, newData: Company): (r: Company)
    ensures KeyOf(r) == KeyOf(existing)
  {
    existing.(
      companyName := newData.companyName,
      addressLine1 := newData.addressLine1,
      addressLine2 := newData.addressLine2,
      addressLine3 := newData.addressLine3,
      country := newData.country,
      equipmentCompanyCode := newData.equipmentCompanyCode,
      faxNumber := newData.faxNumber,
      phoneNumber := newData.phoneNumber,
      postalZipCode := newData.postalZipCode,
      lastModified := newData.lastModified)
  }

  /** Field by field: the key fields of `existing`, every other field of `newData`. */
  lemma CopyDetailsFields(existing: Company, newData: Company)
    ensures forall f :: Get(CopyDetails(existing, newData), f) == if IsKeyField(f) then Get(existing, f) else Get(newData, f)
  {
  }

  /**
   * `UpdateAll` on a company store, with a property name that resolves to a
   * non-key field and a value of the right kind: it succeeds, no key is added
   * or lost, and exactly the matching companies get the value in that field.
   */
  lemma PatchNonKeyField(db: Store.Db<Company>, p: Company -> bool, name: string, value: Value, f: Field)
    requires Store.Consistent(db, KeyOf)
    requires Resolve(name) == Some(f) && !IsKeyField(f) && Accepts(f, value)
    ensures Store.UpdateAll(db, Schema(), p, name, value).result
    ensures Store.UpdateAll(db, Schema(), p, name, value).db.Keys == db.Keys
    ensures forall k :: k in db ==>
              Store.UpdateAll(db, Schema(), p, name, value).db[k] == if p(db[k]) then Set(db[k], f, value).value else db[k]
  {
    NonKeyFieldKeepsKeys(db, f, value);
    Store.UpdateAllNonKeyFieldAt(db, Schema(), p, name, value, f);
  }

  /** ... and every company stays under its own key. */
  lemma PatchNonKeyFieldConsistent(db: Store.Db<Company>, p: Company -> bool, name: string, value: Value, f: Field)
    requires Store.Consistent(db, KeyOf)
    requires Resolve(name) == Some(f) && !IsKeyField(f) && Accepts(f, value)
    ensures Store.Consistent(Store.UpdateAll(db, Schema(), p, name, value).db, KeyOf)
  {
    NonKeyFieldKeepsKeys(db, f, value);
    Store.UpdateAllNonKeyField(db, Schema(), p, name, value, f);
  }

  lemma NonKeyFieldKeepsKeys(db: Store.Db<Company>, f: Field, value: Value)
    requires !IsKeyField(f) && Accepts(f, value)
    ensures forall k :: k in db ==> Store.KeepsKey(Schema(), db[k], f, value)
  {
    forall k | k in db ensures Store.KeepsKey(Schema(), db[k], f, value) {
      var w := Set(db[k], f, value).value;
      assert Get(w, SiteId) == Get(db[k], SiteId) && Get(w, CompanyCode) == Get(db[k], CompanyCode);
    }
  }

  /**
   * `UpdateAll` that patches `SiteId` on one stored company: the company
   * appears under its new key while the old key remains, so the store then
   * holds two entries and its key invariant no longer holds.
   */
  lemma PatchSiteIdLeavesOldKey(c: Company, site: string)
    requires site != c.siteId
    ensures var r := Store.UpdateAll(map[KeyOf(c) := c], Schema(), (x: Company) => true, "siteid", Text(site));
      && r.result
      && r.db.Keys == {KeyOf(c), (site, c.companyCode)}
      && !Store.Consistent(r.db, KeyOf)
  {
    var w := c.(siteId := site);
    assert Resolve("siteid") == Some(SiteId) by {
      assert SameIgnoringCase(Name(AllFields[0]), "siteid");
    }
    assert Set(c, SiteId, Text(site)) == Some(w);
    Store.UpdateAllSingle(KeyOf(c), c, Schema(), (x: Company) => true, "siteid", Text(site), SiteId, w);
    var after := map[KeyOf(c) := w][KeyOf(w) := w];
    assert after[KeyOf(c)] == w && KeyOf(w) != KeyOf(c);
  }
}

module Employees {
  import opened Wrappers
  import opened Fields
  import Store

  datatype Employee = Employee(
    siteId: string,
    companyCode: string,
    employeeCode: string,
    employeeName: string,
    occupation: string,
    employeeStatus: string,
    emailAddress: string,
    phone: string,
    lastModified: int)

  /**
   * The store key of an employee, as the store computes it for every entity:
   * (SiteId, CompanyCode), not (SiteId, EmployeeCode).
   */
  function KeyOf(e: Employee): Store.Key
  {
    (e.siteId, e.companyCode)
  }

  datatype Field =
    | SiteId | CompanyCode | EmployeeCode | EmployeeName | Occupation
    | EmployeeStatus | EmailAddress | Phone | LastModified

  const AllFields: seq<Field> := [
    SiteId, CompanyCode, EmployeeCode, EmployeeName, Occupation,
    EmployeeStatus, EmailAddress, Phone, LastModified]

  lemma AllFieldsListed()
    ensures forall f: Field :: f in AllFields
  {
    forall f: Field ensures f in AllFields {
      match f
      case SiteId => assert AllFields[0] == f;
      case CompanyCode => assert AllFields[1] == f;
      case EmployeeCode => assert AllFields[2] == f;
      case EmployeeName => assert AllFields[3] == f;
      case Occupation => assert AllFields[4] == f;
      case EmployeeStatus => assert AllFields[5] == f;
      case EmailAddress => assert AllFields[6] == f;
      case Phone => assert AllFields[7] == f;
      case LastModified => assert AllFields[8] == f;
    }
  }

  function Name(f: Field): string
  {
    match f
    case SiteId => "SiteId"
    case CompanyCode => "CompanyCode"
    case EmployeeCode => "EmployeeCode"
    case EmployeeName => "EmployeeName"
    case Occupation => "Occupation"
    case EmployeeStatus => "EmployeeStatus"
    case EmailAddress => "EmailAddress"
    case Phone => "Phone"
    case LastModified => "LastModified"
  }

  /** `typeof(Employee).GetProperty(name, IgnoreCase | Public | Instance)`. */
  function Resolve(name: string): (r: Option<Field>)
    ensures r.Some? ==> SameIgnoringCase(Name(r.value), name)
    ensures r.None? ==> forall f: Field :: !SameIgnoringCase(Name(f), name)
  {
    AllFieldsListed();
    Lookup(AllFields, Name, name)
  }

  /** The fields that name the employee and its place; `UpdateEmployeeDetails` leaves them alone. */
  predicate IsIdentityField(f: Field)
  {
    f == SiteId || f == CompanyCode || f == EmployeeCode
  }

  function Get(e: Employee, f: Field): Value
  {
    match f
    case SiteId => Text(e.siteId)
    case CompanyCode => Text(e.companyCode)
    case EmployeeCode => Text(e.employeeCode)
    case EmployeeName => Text(e.employeeName)
    case Occupation => Text(e.occupation)
    case EmployeeStatus => Text(e.employeeStatus)
    case EmailAddress => Text(e.emailAddress)
    case Phone => Text(e.phone)
    case LastModified => Stamp(e.lastModified)
  }

  predicate Accepts(f: Field, v: Value)
  {
    if f == LastModified then v.Stamp? else v.Text?
  }

  /** `PropertyInfo.SetValue` on an employee; `None` where it would throw. */
  function Set(e: Employee, f: Field, v: Value): (r: Option<Employee>)
    ensures r.Some? <==> Accepts(f, v)
    ensures r.Some? ==> Get(r.value, f) == v
    ensures r.Some? ==> forall g :: g != f ==> Get(r.value, g) == Get(e, g)
  {
    if !Accepts(f, v) then None
    else
      Some(match f
        case SiteId => e.(siteId := v.text)
        case CompanyCode => e.(companyCode := v.text)
        case EmployeeCode => e.(employeeCode := v.text)
        case EmployeeName => e.(employeeName := v.text)
        case Occupation => e.(occupation := v.text)
        case EmployeeStatus => e.(employeeStatus := v.text)
        case EmailAddress => e.(emailAddress := v.text)
        case Phone => e.(phone := v.text)
        case LastModified => e.(lastModified := v.ticks))
  }

  function Schema(): Store.Schema<Employee, Field, Value>
  {
    Store.Schema(KeyOf, Resolve, Set)
  }

  /**
   * `UpdateEmployeeDetails`: name, occupation, status, email, phone and
   * last-modified come from `newData`; the identity fields stay.
   */
  function CopyDetails(existing: Employee, newData: Employee): (r: Employee)
    ensures KeyOf(r) == KeyOf(existing) && r.employeeCode == existing.employeeCode
  {
    existing.(
      employeeName := newData.employeeName,
      occupation := newData.occupation,
      employeeStatus := newData.employeeStatus,
      emailAddress := newData.emailAddress,
      phone := newData.phone,
      lastModified := newData.lastModified)
  }

  /** Field by field: the identity fields of `existing`, every other field of `newData`. */
  lemma CopyDetailsFields(existing: Employee, newData: Employee)
    ensures forall f :: Get(CopyDetails(existing, newData), f) == if IsIdentityField(f) then Get(existing, f) else Get(newData, f)
  {
  }

  /**
   * `UpdateAll` on an employee store with a non-key field: it succeeds, no key
   * is added or lost, and exactly the matching employees get the value.
   * (`EmployeeCode` is such a field: it is not part of the store key.)
   */
  lemma PatchNonKeyField(db: Store.Db<Employee>, p: Employee -> bool, name: string, value: Value, f: Field)
    requires Store.Consistent(db, KeyOf)
    requires Resolve(name) == Some(f) && f != SiteId && f != CompanyCode && Accepts(f, value)
    ensures Store.UpdateAll(db, Schema(), p, name, value).result
    ensures Store.UpdateAll(db, Schema(), p, name, value).db.Keys == db.Keys
    ensures forall k :: k in db ==>
              Store.UpdateAll(db, Schema(), p, name, value).db[k] == if p(db[k]) then Set(db[k], f, value).value else db[k]
  {
    NonKeyFieldKeepsKeys(db, f, value);
    Store.UpdateAllNonKeyFieldAt(db, Schema(), p, name, value, f);
  }

  /** ... and every employee stays under its own key. */
  lemma PatchNonKeyFieldConsistent(db: Store.Db<Employee>, p: Employee -> bool, name: string, value: Value, f: Field)
    requires Store.Consistent(db, KeyOf)
    requires Resolve(name) == Some(f) && f != SiteId && f != CompanyCode && Accepts(f, value)
    ensures Store.Consistent(Store.UpdateAll(db, Schema(), p, name, value).db, KeyOf)
  {
    NonKeyFieldKeepsKeys(db, f, value);
    Store.UpdateAllNonKeyField(db, Schema(), p, name, value, f);
  }

  lemma NonKeyFieldKeepsKeys(db: Store.Db<Employee>, f: Field, value: Value)
    requires f != SiteId && f != CompanyCode && Accepts(f, value)
    ensures forall k :: k in db ==> Store.KeepsKey(Schema(), db[k], f, value)
  {
    forall k | k in db ensures Store.KeepsKey(Schema(), db[k], f, value) {
      var w := Set(db[k], f, value).value;
      assert Get(w, SiteId) == Get(db[k], SiteId) && Get(w, CompanyCode) == Get(db[k], CompanyCode);
    }
  }
}

=== FILE: retry.dfy ===
/**
 * The two private `RetryAsync` helpers each repository carries (identical in
 * both). One retries a query while it yields `null`, the other a boolean call
 * while it yields `false`. An attempt is modelled by an oracle indexed by the
 * attempt number, so both the result and the number of calls are exact; the
 * fixed delay between attempts is not modelled.
 */
module Retry {
  import opened Wrappers

  /** The default `maxRetries` of both helpers. */
  const MaxRetries: int := 3

  /** A retried call's final result and how many times the operation ran. */
  datatype Retried<R> = Retried(result: R, calls: nat)

  /** How many iterations `for (attempt = 0; attempt < maxRetries; attempt++)` can run. */
  function Attempts(maxRetries: int): nat
  {
    if maxRetries < 0 then 0 else maxRetries
  }

  /** Retry-on-null: the first non-null attempt, or null once `maxRetries` attempts came back null. */
  function RetryQuery<R>(attempt: nat -> Option<R>, maxRetries: int): (r: Retried<Option<R>>)
    ensures r.calls <= Attempts(maxRetries)
    ensures forall i: nat :: i + 1 < r.calls ==> attempt(i).None?
    ensures r.result == if r.calls == 0 then None else attempt(r.calls - 1)
    ensures r.result.None? ==> r.calls == Attempts(maxRetries)
  {
    QueryFrom(attempt, 0, maxRetries)
  }

  function QueryFrom<R>(attempt: nat -> Option<R>, i: nat, maxRetries: int): (r: Retried<Option<R>>)
    requires i <= Attempts(maxRetries)
    requires forall j: nat :: j < i ==> attempt(j).None?
    ensures i <= r.calls <= Attempts(maxRetries)
    ensures forall j: nat :: j + 1 < r.calls ==> attempt(j).None?
    ensures r.result == if r.calls == 0 then None else attempt(r.calls - 1)
    ensures r.result.None? ==> r.calls == Attempts(maxRetries)
    decreases maxRetries - i
  {
    if i >= maxRetries then Retried(None, i)
    else if attempt(i).Some? then Retried(attempt(i), i + 1)
    else QueryFrom(attempt, i + 1, maxRetries)
  }

  /** Retry-on-false: `true` at the first attempt that yields `true`, else `false` after `maxRetries` calls. */
  function RetryBool(attempt: nat -> bool, maxRetries: int): (r: Retried<bool>)
    ensures r.calls <= Attempts(maxRetries)
    ensures forall i: nat :: i + 1 < r.calls ==> !attempt(i)
    ensures r.result <==> 1 <= r.calls && attempt(r.calls - 1)
    ensures !r.result ==> r.calls == Attempts(maxRetries)
  {
    BoolFrom(attempt, 0, maxRetries)
  }

  function BoolFrom(attempt: nat -> bool, i: nat, maxRetries: int): (r: Retried<bool>)
    requires i <= Attempts(maxRetries)
    requires forall j: nat :: j < i ==> !attempt(j)
    ensures i <= r.calls <= Attempts(maxRetries)
    ensures forall j: nat :: j + 1 < r.calls ==> !attempt(j)
    ensures r.result <==> 1 <= r.calls && attempt(r.calls - 1)
    ensures !r.result ==> r.calls == Attempts(maxRetries)
    decreases maxRetries - i
  {
    if i >= maxRetries then Retried(false, i)
    else if attempt(i) then Retried(true, i + 1)
    else BoolFrom(attempt, i + 1, maxRetries)
  }

  /**
   * Retrying a call whose every attempt answers the same (a store call that
   * changes nothing when it fails): one call when it succeeds, all attempts
   * when it does not, and the answer is passed through.
   */
  lemma RetryBoolSteady(b: bool)
    ensures RetryBool(_ => b, MaxRetries) == Retried(b, if b then 1 else MaxRetries)
  {
  }
}

/**
 * The query half shared by both repositories: a retried `Find` whose
 * attempts may come back null, followed by `FirstOrDefault`.
 */
module Lookup {
  import opened Wrappers
  import opened Store
  import opened Retry

  /**
   * Which attempts of a retried query come back null. `InMemoryDatabase`
   * itself never answers null; a different `IDbWrapper` may, and the
   * repositories' null-tolerant branches exist for it.
   */
  type Nulls = nat -> bool

  /** The in-memory store: no attempt answers null. */
  function Reliable(): Nulls
  {
    (i: nat) => false
  }

  /** All `MaxRetries` attempts come back null. */
  predicate AllNull(nulls: Nulls)
  {
    forall i: nat :: i < MaxRetries ==> nulls(i)
  }

  lemma ReliableAnswers()
    ensures !AllNull(Reliable())
  {
    assert !Reliable()(0);
  }

  /** A retried query whose non-null answer is `answer`: null exactly when every attempt is null. */
  function Query<R>(nulls: Nulls, answer: R): (r: Option<R>)
    ensures r == if AllNull(nulls) then None else Some(answer)
  {
    var q := RetryQuery((i: nat) => if nulls(i) then None else Some(answer), MaxRetries);
    if AllNull(nulls) then
      q.result
    else
      assert q.result.Some? by {
        if q.result.None? {
          forall i: nat | i < MaxRetries ensures nulls(i) {
            if i + 1 < q.calls {
            } else {
              assert i == 2;
            }
          }
        }
      }
      q.result
  }

  /**
   * `(await RetryAsync(() => FindAsync(p)))?.FirstOrDefault()`, returning the
   * key of the chosen entry: some stored entity matching `p`, or null when
   * none matches or the query came back null.
   */
  ghost function FirstMatch<T>(db: Db<T>, nulls: Nulls, p: T -> bool): (r: Option<Key>)
    ensures r.Some? ==> r.value in db && p(db[r.value])
    ensures r.None? <==> AllNull(nulls) || Matching(db, p) == {}
  {
    match Query(nulls, FindKeys(db, p))
    case None => None
    case Some(ks) => if ks == [] then None else Some(ks[0])
  }
}

=== FILE: store.dfy ===
/**
 * The generic keyed store `InMemoryDatabase<T>`: a dictionary from the pair
 * (SiteId, CompanyCode) to an entity, with insert-if-absent, replace-if-present,
 * predicate scan, predicate delete, clear, and a by-name single-field patch.
 *
 * The store is an immutable map; every mutating operation returns the new map
 * together with the operation's boolean result. The dictionary's enumeration
 * order is unspecified, so it is modelled by `Order`, an enumeration of the keys
 * that is fixed but about which nothing else is known.
 */
module Store {
  import opened Wrappers

  /** The dictionary key: (SiteId, CompanyCode) of the stored entity, for every entity type. */
  type Key = (string, string)

  type Db<T> = map<Key, T>

  /** The store after an operation, paired with the operation's result. */
  datatype Stored<T, R> = Stored(db: Db<T>, result: R)

  /** Every entry sits under the key its own value projects to. */
  predicate Consistent<T>(db: Db<T>, keyOf: T -> Key)
  {
    forall k :: k in db ==> keyOf(db[k]) == k
  }

  /** The keys whose entity satisfies `p`. */
  function Matching<T>(db: Db<T>, p: T -> bool): set<Key>
  {
    set k | k in db && p(db[k])
  }

  predicate Distinct<X(==)>(s: seq<X>)
  {
    forall i, j :: 0 <= i < j < |s| ==> s[i] != s[j]
  }

  // ---------------------------------------------------------------- Insert / Update

  /** Adds `item` under its key unless that key is already taken. */
  function Insert<T>(db: Db<T>, keyOf: T -> Key, item: T): (r: Stored<T, bool>)
    ensures r.result <==> keyOf(item) !in db
    ensures r.result ==> r.db.Keys == db.Keys + {keyOf(item)} && r.db[keyOf(item)] == item
    ensures !r.result ==> r.db == db
    ensures forall k :: k in db ==> k in r.db && r.db[k] == db[k]
    ensures Consistent(db, keyOf) ==> Consistent(r.db, keyOf)
  {
    var key := keyOf(item);
    if key in db then Stored(db, false) else Stored(db[key := item], true)
  }

  /** Replaces the entity under `item`'s key when that key is present: a whole-record replace. */
  function Update<T>(db: Db<T>, keyOf: T -> Key, item: T): (r: Stored<T, bool>)
    ensures r.result <==> keyOf(item) in db
    ensures r.db.Keys == db.Keys
    ensures r.result ==> r.db[keyOf(item)] == item
    ensures forall k :: k in db && k != keyOf(item) ==> r.db[k] == db[k]
    ensures !r.result ==> r.db == db
    ensures Consistent(db, keyOf) ==> Consistent(r.db, keyOf)
  {
    var key := keyOf(item);
    if key in db then Stored(db[key := item], true) else Stored(db, false)
  }

  /** Exactly one of `Insert` and `Update` accepts an item, and the one that does leaves it under its key. */
  lemma InsertOrUpdate<T>(db: Db<T>, keyOf: T -> Key, item: T)
    ensures Insert(db, keyOf, item).result != Update(db, keyOf, item).result
    ensures Insert(db, keyOf, item).result ==> Insert(db, keyOf, item).db == db[keyOf(item) := item]
    ensures Update(db, keyOf, item).result ==> Update(db, keyOf, item).db == db[keyOf(item) := item]
  {
  }

  // ---------------------------------------------------------------- Find / FindAll

  /** Some enumeration of a finite set of keys, each exactly once. */
  ghost function Enumerate(s: set<Key>): (ks: seq<Key>)
    ensures |ks| == |s|
    ensures forall k :: k in ks <==> k in s
    ensures Distinct(ks)
    decreases s
  {
    if s == {} then []
    else
      var k :| k in s;
      [k] + Enumerate(s - {k})
  }

  /** The dictionary's enumeration order over its keys. */
  ghost function Order<T>(db: Db<T>): (ks: seq<Key>)
    ensures |ks| == |db| && Distinct(ks)
    ensures forall k :: k in ks <==> k in db
  {
    Enumerate(db.Keys)
  }

  /** The keys of `ks`, in order, whose entity satisfies `p` (LINQ `Where`). */
  function KeysWhere<T>(db: Db<T>, ks: seq<Key>, p: T -> bool): (r: seq<Key>)
    requires forall k :: k in ks ==> k in db
    ensures forall k :: k in r <==> k in ks && p(db[k])
    ensures Distinct(ks) ==> Distinct(r)
  {
    if ks == [] then []
    else
      var rest := KeysWhere(db, ks[1..], p);
      assert forall k :: k in ks <==> k == ks[0] || k in ks[1..];
      assert Distinct(ks) ==> ks[0] !in ks[1..] && Distinct(ks[1..]) by {
        if Distinct(ks) {
          forall i, j | 0 <= i < j < |ks[1..]| ensures ks[1..][i] != ks[1..][j] {
            assert ks[1..][i] == ks[i + 1] && ks[1..][j] == ks[j + 1];
          }
        }
      }
      if p(db[ks[0]]) then [ks[0]] + rest else rest
  }

  /** The entities stored under `ks`, in the same order. */
  function ValuesAt<T>(db: Db<T>, ks: seq<Key>): (r: seq<T>)
    requires forall k :: k in ks ==> k in db
    ensures |r| == |ks|
    ensures forall i :: 0 <= i < |ks| ==> r[i] == db[ks[i]]
  {
    seq(|ks|, i requires 0 <= i < |ks| => db[ks[i]])
  }

  lemma ValuesAtMembers<T>(db: Db<T>, ks: seq<Key>)
    requires forall k :: k in ks ==> k in db
    ensures forall k :: k in ks ==> db[k] in ValuesAt(db, ks)
  {
    var r := ValuesAt(db, ks);
    forall k | k in ks ensures db[k] in r {
      var i :| 0 <= i < |ks| && ks[i] == k;
      assert r[i] == db[k];
    }
  }

  /** A sequence without repetitions has as many elements as the set of its elements. */
  lemma {:induction false} DistinctCard<X>(s: seq<X>)
    requires Distinct(s)
    ensures |(set x | x in s)| == |s|
  {
    if s != [] {
      var tail := s[1..];
      assert Distinct(tail) by {
        forall i, j | 0 <= i < j < |tail| ensures tail[i] != tail[j] {
          assert tail[i] == s[i + 1] && tail[j] == s[j + 1];
        }
      }
      DistinctCard(tail);
      assert s[0] !in tail;
      assert (set x | x in s) == {s[0]} + (set x | x in tail) by {
        assert forall x :: x in s <==> x == s[0] || x in tail;
      }
    }
  }

  /** The keys of the entities `Find(p)` returns, in enumeration order. */
  ghost function FindKeys<T>(db: Db<T>, p: T -> bool): (r: seq<Key>)
    ensures Distinct(r)
    ensures forall k :: k in r <==> k in db && p(db[k])
    ensures |r| == |Matching(db, p)|
  {
    var r := KeysWhere(db, Order(db), p);
    DistinctCard(r);
    assert (set x | x in r) == Matching(db, p);
    r
  }

  /** `FindAll`: every stored entity, once per key, in enumeration order. */
  ghost function FindAll<T>(db: Db<T>): (r: seq<T>)
    ensures |r| == |db|
    ensures forall i :: 0 <= i < |r| ==> r[i] in db.Values
    ensures forall k :: k in db ==> db[k] in r
    ensures forall i :: 0 <= i < |r| ==> r[i] == db[Order(db)[i]]
  {
    var ks := Order(db);
    ValuesAtMembers(db, ks);
    ValuesAt(db, ks)
  }

  /**
   * `FindAll` lists every stored entry once: an attribute that no two stored
   * entries share takes different values at different positions.
   */
  lemma FindAllOnceEach<T, A>(db: Db<T>, attr: T -> A)
    requires forall k1, k2 :: k1 in db && k2 in db && attr(db[k1]) == attr(db[k2]) ==> k1 == k2
    ensures forall i, j :: 0 <= i < j < |FindAll(db)| ==> attr(FindAll(db)[i]) != attr(FindAll(db)[j])
  {
    var ks := Order(db);
    var r := FindAll(db);
    forall i, j | 0 <= i < j < |r| ensures attr(r[i]) != attr(r[j]) {
      assert r[i] == db[ks[i]] && r[j] == db[ks[j]];
      assert ks[i] != ks[j];
    }
  }

  /** `Find(p)`: `FindAll` filtered by `p`; exactly the stored entities satisfying `p`, once per key. */
  ghost function Find<T>(db: Db<T>, p: T -> bool): (r: seq<T>)
    ensures |r| == |Matching(db, p)| == |FindKeys(db, p)|
    ensures forall i :: 0 <= i < |r| ==> r[i] in db.Values && p(r[i])
    ensures forall k :: k in db && p(db[k]) ==> db[k] in r
    ensures forall i :: 0 <= i < |r| ==> r[i] == db[FindKeys(db, p)[i]]
  {
    var ks := FindKeys(db, p);
    ValuesAtMembers(db, ks);
    ValuesAt(db, ks)
  }

  /** The keys among `ks` under which `v` is stored. */
  ghost function KeysHolding<T>(db: Db<T>, ks: seq<Key>, v: T): set<Key>
  {
    set k | k in ks && k in db && db[k] == v
  }

  /**
   * `Find(p)` returns each value as many times as it is stored under a key
   * whose entity satisfies `p`.
   */
  lemma FindCounts<T>(db: Db<T>, p: T -> bool, v: T)
    ensures multiset(Find(db, p))[v] == |set k | k in db && p(db[k]) && db[k] == v|
  {
    var ks := FindKeys(db, p);
    ValuesAtCount(db, ks, v);
    assert KeysHolding(db, ks, v) == (set k | k in db && p(db[k]) && db[k] == v);
    assert Find(db, p) == ValuesAt(db, ks);
  }

  /** `FindAll` returns each value as many times as it is stored. */
  lemma FindAllCounts<T>(db: Db<T>, v: T)
    ensures multiset(FindAll(db))[v] == |set k | k in db && db[k] == v|
  {
    var ks := Order(db);
    ValuesAtCount(db, ks, v);
    assert KeysHolding(db, ks, v) == (set k | k in db && db[k] == v);
  }

  lemma {:induction false} ValuesAtCount<T>(db: Db<T>, ks: seq<Key>, v: T)
    requires forall k :: k in ks ==> k in db
    requires Distinct(ks)
    ensures multiset(ValuesAt(db, ks))[v] == |KeysHolding(db, ks, v)|
    decreases |ks|
  {
    if ks == [] {
      assert KeysHolding(db, ks, v) == {};
    } else {
      var tail := ks[1..];
      assert Distinct(tail) by {
        forall i, j | 0 <= i < j < |tail| ensures tail[i] != tail[j] {
          assert tail[i] == ks[i + 1] && tail[j] == ks[j + 1];
        }
      }
      ValuesAtCount(db, tail, v);
      ValuesAtCons(db, ks);
      assert multiset(ValuesAt(db, ks)) == multiset([db[ks[0]]]) + multiset(ValuesAt(db, tail));
      HoldingCons(db, ks, v);
    }
  }

  lemma ValuesAtCons<T>(db: Db<T>, ks: seq<Key>)
    requires forall k :: k in ks ==> k in db
    requires ks != []
    ensures ValuesAt(db, ks) == [db[ks[0]]] + ValuesAt(db, ks[1..])
  {
  }

  lemma HoldingCons<T>(db: Db<T>, ks: seq<Key>, v: T)
    requires ks != [] && ks[0] in db && ks[0] !in ks[1..]
    ensures |KeysHolding(db, ks, v)| == |KeysHolding(db, ks[1..], v)| + if db[ks[0]] == v then 1 else 0
  {
    var all := KeysHolding(db, ks, v);
    var rest := KeysHolding(db, ks[1..], v);
    assert forall k :: k in ks <==> k == ks[0] || k in ks[1..];
    if db[ks[0]] == v {
      assert all == rest + {ks[0]};
    } else {
      assert all == rest;
    }
  }

  /** `Find` with a predicate that accepts everything is `FindAll`. */
  lemma FindTrueIsFindAll<T>(db: Db<T>, p: T -> bool)
    requires forall v :: p(v)
    ensures Find(db, p) == FindAll(db)
  {
    KeysWhereAll(db, Order(db), p);
  }

  lemma {:induction false} KeysWhereAll<T>(db: Db<T>, ks: seq<Key>, p: T -> bool)
    requires forall k :: k in ks ==> k in db
    requires forall v :: p(v)
    ensures KeysWhere(db, ks, p) == ks
    decreases |ks|
  {
    if ks != [] {
      KeysWhereAll(db, ks[1..], p);
      assert [ks[0]] + ks[1..] == ks;
    }
  }

  // ---------------------------------------------------------------- Delete / DeleteAll

  /**
   * Removes, for every stored entity satisfying `p`, the key computed from that
   * entity's own fields; always succeeds, even when nothing matched.
   */
  function Delete<T>(db: Db<T>, keyOf: T -> Key, p: T -> bool): (r: Stored<T, bool>)
    ensures r.result
    ensures r.db.Keys <= db.Keys
    ensures forall k :: k in r.db ==> r.db[k] == db[k]
    ensures Consistent(db, keyOf) ==> Consistent(r.db, keyOf)
    ensures Consistent(db, keyOf) ==> forall k :: k in r.db <==> k in db && !p(db[k])
  {
    Stored(db - (set j | j in db && p(db[j]) :: keyOf(db[j])), true)
  }

  /** In a consistent store nothing that satisfies `p` survives a `Delete(p)`. */
  lemma DeleteThenFind<T>(db: Db<T>, keyOf: T -> Key, p: T -> bool)
    requires Consistent(db, keyOf)
    ensures Find(Delete(db, keyOf, p).db, p) == []
  {
    var after := Delete(db, keyOf, p).db;
    assert Matching(after, p) == {};
  }

  /** Deleting twice with the same predicate is deleting once. */
  lemma DeleteIdempotent<T>(db: Db<T>, keyOf: T -> Key, p: T -> bool)
    requires Consistent(db, keyOf)
    ensures Delete(Delete(db, keyOf, p).db, keyOf, p) == Delete(db, keyOf, p)
  {
    var after := Delete(db, keyOf, p).db;
    assert (set j | j in after && p(after[j]) :: keyOf(after[j])) == {};
  }

  /** Clears the store. */
  function DeleteAll<T>(db: Db<T>): (r: Stored<T, bool>)
    ensures r.result && |r.db| == 0
  {
    Stored(map[], true)
  }

  /** After `DeleteAll` every scan comes back empty. */
  lemma DeleteAllThenFindAll<T>(db: Db<T>)
    ensures FindAll(DeleteAll(db).db) == []
  {
  }

  // ---------------------------------------------------------------- UpdateAll

  /**
   * What reflection supplies for one entity type: the key projection, the
   * case-insensitive property lookup, and the property setter. The setter
   * returns `None` where `SetValue` would throw (a value of the wrong kind).
   */
  datatype Schema<!T, !F, -V> = Schema(keyOf: T -> Key, resolve: string -> Option<F>, assign: (T, F, V) -> Option<T>)

  /**
   * The loop of `UpdateAll` over the matching keys `ks`, whose entities are taken
   * from the snapshot `snap`. Each step sets the field on the entity, which is
   * mutated in place (so its own slot sees the change) and is then stored
   * again under the key its fields now project to. A setter fault ends the loop
   * with `false`, keeping the writes already made.
   */
  function PatchEach<T, F, V>(db: Db<T>, s: Schema<T, F, V>, snap: Db<T>, ks: seq<Key>, f: F, value: V): (r: Stored<T, bool>)
    requires forall k :: k in ks ==> k in snap
    ensures db.Keys <= r.db.Keys
    ensures r.result <==> forall k :: k in ks ==> s.assign(snap[k], f, value).Some?
    ensures !r.result ==> exists k :: k in ks && s.assign(snap[k], f, value).None?
    decreases |ks|
  {
    if ks == [] then Stored(db, true)
    else
      match s.assign(snap[ks[0]], f, value)
      case None => Stored(db, false)
      case Some(v) => PatchEach(db[ks[0] := v][s.keyOf(v) := v], s, snap, ks[1..], f, value)
  }

  /**
   * `UpdateAll(filter, fieldName, value)`: sets the named field on every entity
   * matching `p`. An unknown field name faults on the first match, which is
   * caught and reported as `false`; with no match the loop never runs.
   */
  ghost function UpdateAll<T, F, V>(db: Db<T>, s: Schema<T, F, V>, p: T -> bool, name: string, value: V): (r: Stored<T, bool>)
    ensures db.Keys <= r.db.Keys
    ensures s.resolve(name).None? ==> r.db == db && (r.result <==> Matching(db, p) == {})
  {
    var ks := FindKeys(db, p);
    match s.resolve(name)
    case None => Stored(db, ks == [])
    case Some(f) => PatchEach(db, s, db, ks, f, value)
  }

  /** `v` with field `f` set to `value`; `v` itself where the setter faults. */
  function Apply<T, F, V>(s: Schema<T, F, V>, v: T, f: F, value: V): T
  {
    match s.assign(v, f, value)
    case Some(w) => w
    case None => v
  }

  /** Setting field `f` to `value` on `v` succeeds and leaves its key unchanged. */
  predicate KeepsKey<T, F, V>(s: Schema<T, F, V>, v: T, f: F, value: V)
  {
    s.assign(v, f, value).Some? && s.keyOf(s.assign(v, f, value).value) == s.keyOf(v)
  }

  lemma {:induction false} PatchEachInPlace<T, F, V>(db: Db<T>, s: Schema<T, F, V>, snap: Db<T>, ks: seq<Key>, f: F, value: V)
    requires Consistent(db, s.keyOf) && Distinct(ks)
    requires forall k :: k in ks ==> k in db && k in snap && db[k] == snap[k] && KeepsKey(s, snap[k], f, value)
    ensures PatchEach(db, s, snap, ks, f, value)
         == Stored(map k | k in db :: if k in ks then Apply(s, snap[k], f, value) else db[k], true)
    decreases |ks|
  {
    var target := map k | k in db :: if k in ks then Apply(s, snap[k], f, value) else db[k];
    if ks == [] {
      assert target == db;
    } else {
      var k0 := ks[0];
      var rest := ks[1..];
      var v := s.assign(snap[k0], f, value).value;
      assert s.keyOf(v) == k0;
      var db1 := db[k0 := v][s.keyOf(v) := v];
      assert db1 == db[k0 := v];
      assert forall k :: k in ks <==> k == k0 || k in rest;
      assert k0 !in rest;
      assert Distinct(rest) by {
        forall i, j | 0 <= i < j < |rest| ensures rest[i] != rest[j] {
          assert rest[i] == ks[i + 1] && rest[j] == ks[j + 1];
        }
      }
      PatchEachInPlace(db1, s, snap, rest, f, value);
      var target1 := map k | k in db1 :: if k in rest then Apply(s, snap[k], f, value) else db1[k];
      assert target1 == target;
    }
  }

  /** `db` with field `f` set to `value` on exactly the entities satisfying `p`. */
  function PatchedWhere<T, F, V>(db: Db<T>, s: Schema<T, F, V>, p: T -> bool, f: F, value: V): Db<T>
  {
    map k | k in db :: if p(db[k]) then Apply(s, db[k], f, value) else db[k]
  }

  /**
   * Patching a field that does not take part in the key, with a value of the
   * right kind: every matching entity gets the new value, every other entry is
   * untouched, the key invariant survives, and the result is `true`.
   */
  lemma UpdateAllNonKeyField<T, F, V>(db: Db<T>, s: Schema<T, F, V>, p: T -> bool, name: string, value: V, f: F)
    requires Consistent(db, s.keyOf)
    requires s.resolve(name) == Some(f)
    requires forall k :: k in db ==> KeepsKey(s, db[k], f, value)
    ensures UpdateAll(db, s, p, name, value) == Stored(PatchedWhere(db, s, p, f, value), true)
    ensures Consistent(PatchedWhere(db, s, p, f, value), s.keyOf)
  {
    PatchedWhereConsistent(db, s, p, f, value);
    var ks := FindKeys(db, p);
    assert UpdateAll(db, s, p, name, value) == PatchEach(db, s, db, ks, f, value);
    PatchEachInPlace(db, s, db, ks, f, value);
    PatchedAtKeys(db, s, p, ks, f, value);
  }

  /** The same, entry by entry. */
  lemma UpdateAllNonKeyFieldAt<T, F, V>(db: Db<T>, s: Schema<T, F, V>, p: T -> bool, name: string, value: V, f: F)
    requires Consistent(db, s.keyOf)
    requires s.resolve(name) == Some(f)
    requires forall k :: k in db ==> KeepsKey(s, db[k], f, value)
    ensures UpdateAll(db, s, p, name, value).result
    ensures UpdateAll(db, s, p, name, value).db.Keys == db.Keys
    ensures forall k :: k in db ==>
              UpdateAll(db, s, p, name, value).db[k] == if p(db[k]) then Apply(s, db[k], f, value) else db[k]
  {
    UpdateAllNonKeyField(db, s, p, name, value, f);
  }

  /** Patching the entries at the keys of the matches is patching where `p` holds. */
  lemma PatchedAtKeys<T, F, V>(db: Db<T>, s: Schema<T, F, V>, p: T -> bool, ks: seq<Key>, f: F, value: V)
    requires forall k :: k in ks <==> k in db && p(db[k])
    ensures (map k | k in db :: if k in ks then Apply(s, db[k], f, value) else db[k]) == PatchedWhere(db, s, p, f, value)
  {
    var m1 := map k | k in db :: if k in ks then Apply(s, db[k], f, value) else db[k];
    var m2 := PatchedWhere(db, s, p, f, value);
    assert m1.Keys == m2.Keys;
    forall k | k in m1 ensures m1[k] == m2[k] {
      assert k in ks <==> p(db[k]);
    }
  }

  lemma PatchedWhereConsistent<T, F, V>(db: Db<T>, s: Schema<T, F, V>, p: T -> bool, f: F, value: V)
    requires Consistent(db, s.keyOf)
    requires forall k :: k in db ==> KeepsKey(s, db[k], f, value)
    ensures Consistent(PatchedWhere(db, s, p, f, value), s.keyOf)
  {
    var m := PatchedWhere(db, s, p, f, value);
    forall k | k in m ensures s.keyOf(m[k]) == k {
      assert KeepsKey(s, db[k], f, value);
    }
  }

  lemma {:induction false} PatchEachAddsNewKeys<T, F, V>(db: Db<T>, s: Schema<T, F, V>, snap: Db<T>, ks: seq<Key>, f: F, value: V)
    requires forall k :: k in ks ==> k in snap && s.assign(snap[k], f, value).Some?
    ensures PatchEach(db, s, snap, ks, f, value).result
    ensures forall k :: k in ks ==> s.keyOf(Apply(s, snap[k], f, value)) in PatchEach(db, s, snap, ks, f, value).db
    decreases |ks|
  {
    if ks != [] {
      var v := s.assign(snap[ks[0]], f, value).value;
      var db1 := db[ks[0] := v][s.keyOf(v) := v];
      PatchEachAddsNewKeys(db1, s, snap, ks[1..], f, value);
      assert forall k :: k in ks ==> k == ks[0] || k in ks[1..];
    }
  }

  /**
   * Patching with a setter that never faults (in particular a key field):
   * the result is `true`, no key disappears, and every matching entity is also
   * present under the key its patched fields project to. Where that key is new,
   * the old key remains beside it.
   */
  lemma UpdateAllKeyField<T, F, V>(db: Db<T>, s: Schema<T, F, V>, p: T -> bool, name: string, value: V, f: F)
    requires s.resolve(name) == Some(f)
    requires forall k :: k in db ==> s.assign(db[k], f, value).Some?
    ensures UpdateAll(db, s, p, name, value).result
    ensures db.Keys <= UpdateAll(db, s, p, name, value).db.Keys
    ensures forall k :: k in db && p(db[k]) ==>
              s.keyOf(Apply(s, db[k], f, value)) in UpdateAll(db, s, p, name, value).db
  {
    PatchEachAddsNewKeys(db, s, db, FindKeys(db, p), f, value);
  }

  /**
   * `UpdateAll` on a store holding one matching entity: the patched entity is
   * written to the old slot and to the slot of its new key.
   */
  lemma UpdateAllSingle<T, F, V>(k: Key, v: T, s: Schema<T, F, V>, p: T -> bool, name: string, value: V, f: F, w: T)
    requires p(v) && s.resolve(name) == Some(f) && s.assign(v, f, value) == Some(w)
    ensures UpdateAll(map[k := v], s, p, name, value) == Stored(map[k := w][s.keyOf(w) := w], true)
  {
    var db := map[k := v];
    var ks := FindKeys(db, p);
    assert Matching(db, p) == {k};
    assert ks[0] in ks;
    assert ks == [k];
    assert PatchEach(db, s, db, ks, f, value) == PatchEach(db[k := w][s.keyOf(w) := w], s, db, [], f, value);
  }
}
